=== FILE: README.md ===
# Recipe app: cache and fetch layer

A Dafny model of the data layer of a recipe-browsing app built on a public
recipe API. It covers three parts:

- **The two-tier TTL cache** (`getCache`/`setCache`). It exists twice: a standalone module and a copy embedded in the API module.
  - The memory tier maps keys to entries `{data, stamp}`.
  - The durable tier maps keys to serialised entries.
  - An entry is fresh while `now - stamp < 30 * 60 * 1000`, a strict comparison.
  - A read returns a fresh memory entry directly. Otherwise it deletes the stale memory entry and consults the durable tier.
  - There, a fresh entry is promoted into memory and a stale one is removed. An unreadable value is a miss that changes nothing.
  - A write stamps the entry with `now` and puts it in memory, then in the durable tier.
- **The cache-or-fetch policy** (`fetchCached`) and the query functions built on it.
  - Each query has its own key namespace: `search:`, `area:`, `category:`, `meal:` and `popular`.
  - `getMealDetails` returns the first record of the response and caches it only when there is one.
- **The aggregated Indian-cuisine view** (`fetchIndianMeals`).
  - A fresh `indian:all` entry answers at once.
  - Otherwise it fetches `indian:area` and nine keyword searches (`indian:kw:<keyword>`), each through the cache-or-fetch policy.
  - It merges the results by `idMeal` through a JavaScript `Map` and caches the merge under `indian:all`.
  - Any failure degrades to `[]`.

Modules:

| file | module | what it holds |
|---|---|---|
| records.dfy | `Records` | meals, payloads, entries with both stamp fields, durable raw values, the TTL and freshness |
| ttl_cache.dfy | `TtlCache` | the cache state, `GetCache`, `SetCache`, and the proof that the two copies agree up to the stamp field |
| fetcher.dfy | `Fetcher` | endpoints, responses, `FetchCached`, key builders, the four list queries, `GetMealDetails` |
| meal_merge.dfy | `MealMerge` | `Map.set` over an insertion-ordered map, the merge, and its reference definition |
| indian_meals.dfy | `IndianMeals` | the keyword batch, the gather/merge/write steps, `FetchIndianMeals` |

Modelling choices:

- **Explicit state, time and remote.** Every operation takes the cache state and the clock value `now`. It returns the new state together with its result.
- **The remote API** is a function parameter from endpoint to response. Every call also returns the endpoints it requested, in order. So "no request was made" is `fetched == []`.
- **One copy's view.** Each cache copy has its own memory map, and both use the same durable storage. A `Cache` value is one copy's view: its own memory tier plus the shared durable tier. The two memory maps are never modelled together.
- **Stamp fields.** An entry carries both possible stamp fields: `timestamp`, written by the standalone copy, and `time`, written by the embedded copy.
  - A cache copy reads only its own field.
  - A missing field makes the age NaN, which is never below the TTL, so the entry is stale.
  - Because storage is shared, the field difference would be observable: a standalone read of a key its own memory lacks removes any entry the embedded copy stored under that key. This is a property of the code only. No screen or component of the app imports the standalone module, so the app as written never triggers it.
- **Durable storage writes can be rejected** (for example when storage is full). The flag `writable` says whether they succeed.
  - `setCache` writes memory before it awaits the durable write. A rejected write therefore leaves the memory tier updated and makes the call throw.
- **Hits.** A cache hit is `Some(data)`. Every payload stored is an array or a record, and both are truthy in JavaScript.

Four behaviours of the code are easy to misread:

- **Dedup keeps the last copy.** The merge calls `Map.set` for every record. A repeated id keeps the position where it first appeared, and its value is the last record seen with that id. So a keyword-search copy replaces the area-filter copy. See `MealMerge.LaterCopyWins`.
- **A rejected durable write is fatal to the call.** It rejects `fetchCached` and `getMealDetails`. In `fetchIndianMeals` it is caught, and turns a completed merge into `[]`, while memory already holds the merge. See `IndianMeals.RejectedFinalWriteStillServesMemory`.
- **A failing keyword search does not stop the others.** When the area fetch has succeeded, all nine keyword searches run, including those after the failure. `Promise.all` rejects, but the searches were already issued, and each one still caches its own result. See `IndianMeals.GatherState`.
- **An empty merge is cached.** A merge with no records is still written under `indian:all`. An empty array is truthy, so it answers every call for the next 30 minutes. See `IndianMeals.EmptyMergeIsCached`.

## Model

| member | source | states |
|---|---|---|
| `TtlCache.GetCache` | src/services/cache.ts:11-38 | A hit happens iff a tier holds a fresh entry. A fresh memory entry is returned with no change at all. Otherwise a fresh durable entry is promoted and returned. After a miss the key is absent from memory, and the durable tier keeps the key only if its value is unreadable. The durable tier never gains entries, and no other key changes. |
| `TtlCache.SetCache` | src/services/cache.ts:40-48 | Memory holds exactly the entry `{data, stamp: now}` in the copy's own stamp field, with the other field absent. On success the durable tier holds the same entry. On rejection the durable tier is unchanged and memory is still written. No other key changes. |
| `TtlCache.ReadIsLocal` | src/services/cache.ts:11-38 | Whether a read of a key hits, and what it returns, depend only on what the two tiers hold for that key. |
| `TtlCache.ReadAfterWrite` | src/services/cache.ts:13-47 | A read at the time of a write, or up to TTL-1 ms after it, returns the written data from memory and changes nothing. |
| `TtlCache.ExpiredAfterWrite` | src/services/cache.ts:13-37 | At an age of TTL or more after a stored write, a read misses and the key is gone from both tiers. An age of exactly TTL is stale. |
| `TtlCache.RewriteRestartsWindow` | src/services/cache.ts:40-46 | A second write restarts expiry. At a time when the first write alone has expired, the second write's data is returned. |
| `TtlCache.ReadIsStable` | src/services/cache.ts:11-38 | Repeating a read at the same moment gives the same answer and the same state. |
| `TtlCache.PromotionServesLaterReads` | src/services/cache.ts:26-29 | A durable entry found with an empty memory slot is returned and copied into memory. A later read within its freshness is a pure memory hit. |
| `TtlCache.StandaloneEvictsEmbeddedEntry` | src/services/cache.ts:27-31 | An entry stamped in field `time` is stale to the standalone copy at any clock value. Its read misses and removes the entry from storage. |
| `TtlCache.EmbeddedReadMirrorsStandalone` | src/services/api.ts:16-40 | The embedded read, which uses field `time`, gives the same answer and the same promotion and eviction as the standalone read on the state with the stamp fields swapped. |
| `TtlCache.EmbeddedWriteMirrorsStandalone` | src/services/api.ts:42-46 | The embedded write equals the standalone write on the state with the stamp fields swapped. |
| `Fetcher.FetchCached` | src/services/api.ts:52-64 | No request is made iff the read hits. A hit returns the cached data and writes nothing. A miss requests the URL once. A non-ok status or an unparseable body throws, and nothing is written. A parseable body puts exactly the entry holding the list (`[]` for null), stamped `now`, in memory. The call succeeds iff the durable write succeeds. On success the durable tier holds the same entry. On a rejected write the call throws and the durable tier is left as the read left it. Only the key's entries change. |
| `Fetcher.FetchCachedLocal` | src/services/api.ts:52-64 | Two states that agree on the key's entries and on whether storage accepts writes make the same request and get the same result. |
| `Fetcher.FetchStateLocal` | src/services/api.ts:52-64 | Two states that agree on the key's entries and on whether storage accepts writes leave the key in the same state after a cached fetch of it. |
| `Fetcher.FetchThenHit` | src/services/api.ts:52-64 | After a successful fetch at time t, the same call within the TTL returns the same value with no request, whatever the remote would now answer. |
| `Fetcher.NullMealsCachedAsEmpty` | src/services/api.ts:59-63 | On a miss, when storage accepts writes, an ok response with `meals: null` resolves to `[]`, and `[]` stamped `now` is stored durably under the key. |
| `Fetcher.SearchMeals` | src/services/api.ts:70-75 | Only key `search:<query>` can change, and the only possible request is a search by name for the query. |
| `Fetcher.FilterByArea` | src/services/api.ts:81-86 | Only key `area:<area>` can change, and the only possible request is the area filter. |
| `Fetcher.FilterByCategory` | src/services/api.ts:88-93 | Only key `category:<category>` can change, and the only possible request is the category filter. |
| `Fetcher.FetchPopularMeals` | src/services/api.ts:118-123 | Only key `popular` can change, and the only possible request is a search for the empty term. |
| `Fetcher.GetMealDetails` | src/services/api.ts:99-112 | Same hit/miss and request behaviour as the list queries, under key `meal:<id>`. A non-ok status throws an API error and an unparseable body a parse error, with nothing written. A response with no record resolves to nothing and leaves the key uncached. The entry holding the first record, stamped `now`, is stored in memory. If storage accepts it, it is returned and the durable tier holds the same entry. If storage rejects it, the call throws and the durable tier is left as the read left it. |
| `Fetcher.NotFoundIsRefetched` | src/services/api.ts:108-111 | After a lookup that found nothing, the next lookup asks the remote again. |
| `Fetcher.QueryKeysDistinct` | src/services/api.ts:70-123 | The search, area, category, meal and popular keys never coincide. |
| `Fetcher.QueryKeysInjective` | src/services/api.ts:70-100 | Equal keys of one kind come from equal arguments. |
| `MealMerge.Put` | src/services/api.ts:166 | `Map.set` keeps an existing key's position and gives it the new value, or appends a new key last. Keys stay distinct, and no other slot changes. |
| `MealMerge.BuildMatchesReference` | src/services/api.ts:164-167 | The map built by the merge loop has exactly the distinct truthy ids in order of first appearance. Each id holds the last record seen with it. |
| `MealMerge.FirstIdsInOrder` | src/services/api.ts:165-169 | Ids come out ordered by the position of their first occurrence in the input. |
| `MealMerge.MergeSpec` | src/services/api.ts:163-169 | The merged list meets `MergedFrom`: only records with a truthy id, with pairwise distinct ids. It contains every truthy id of the input, orders ids by first appearance, and holds each id's last-seen record. |
| `MealMerge.LaterCopyWins` | src/services/api.ts:164-169 | For any records with ids x, y, z pairwise different, area `[x, y]` followed by keyword `[y', z]`, where y' also has id y, merges to `[x, y', z]`. The id keeps its first position and takes the later record. |
| `MealMerge.RecordsWithoutIdDropped` | src/services/api.ts:165-169 | For every input and every position: a record whose `idMeal` is absent or the empty string leaves the merge exactly as if it were not in the input. |
| `MealMerge.AbsentAndEmptyIdsDropped` | src/services/api.ts:166 | Both falsy forms of `idMeal`, absent and the empty string, are dropped: two such records merge to `[]`. |
| `IndianMeals.FetchKeywords` | src/services/api.ts:154-161 | One result per keyword, and result i belongs to keyword i. A failed result was requested from the remote. A successful result is what memory holds fresh for that keyword's key at the end. The requests are searches for keywords of the list, in list order, with at most one per position. Entries already fresh in memory are untouched, and only keyword-namespace keys change. When no keyword repeats, running the searches one after another equals running each on its own: result i is exactly keyword i's own `fetchCached` from the starting state, and the requests are exactly the searches for the keywords that state cannot answer, in list order. The state each key is left in is stated by `IndianMeals.FetchKeywordsState` and `IndianMeals.FetchKeywordsUnlisted`. |
| `IndianMeals.FetchKeywordsState` | src/services/api.ts:154-161 | For distinct keywords, each keyword's key ends, in both tiers, exactly as that keyword's own `fetchCached` from the starting state leaves it, whether the search hit, failed or stored its list. |
| `IndianMeals.FetchKeywordsUnlisted` | src/services/api.ts:154-161 | Every key that belongs to no listed keyword is left as it was. |
| `IndianMeals.SearchesAmongBounds` | src/services/api.ts:154-161 | The keyword requests number at most one per keyword, and each is a search for a listed keyword. |
| `IndianMeals.IndianKeysDistinct` | src/services/api.ts:130-158 | `indian:all`, `indian:area` and every `indian:kw:` key are pairwise different. |
| `IndianMeals.KeywordsFromRemote` | src/services/api.ts:154-165 | When storage accepts writes, with no keyword key cached and every search answering, the flattened keyword results are the remote's lists in keyword order. |
| `IndianMeals.KeywordsAllHit` | src/services/api.ts:154-161 | With every keyword key fresh in memory, the searches make no request and change nothing. |
| `IndianMeals.KeywordFailurePropagates` | src/services/api.ts:154-161 | An uncached keyword whose search fails makes the batch fail. |
| `IndianMeals.Combine` | src/services/api.ts:163-169 | A merge exists iff every keyword search succeeded and the area payload is a list. The merge is then `MergedFrom` the area list followed by the flattened keyword results: complete, ordered by first appearance, and holding last-seen records. |
| `IndianMeals.Gather` | src/services/api.ts:146-169 | An area failure stops after one request, with no keyword results and no merge. Otherwise there are nine keyword results, each belonging to its keyword as in `FetchKeywords`, and the area list is held fresh in memory. A merge exists iff the area fetch and every search succeeded and the area payload is a list. It is then the merge of the area list followed by the keyword lists. There are at most ten requests, all sub-requests, and only `indian:area` and keyword keys change. What each part and each key holds, relative to the starting state, is stated by `IndianMeals.GatherSourced` and `IndianMeals.GatherState`. |
| `IndianMeals.GatherSourced` | src/services/api.ts:146-161 | Each part of the gather is its own `fetchCached` run on the starting state. The area result is the area fetch's. After a successful area fetch, keyword result i is keyword i's fetch. The requests are the area request, if the state could not answer it, followed by the searches for the keywords the state cannot answer. |
| `IndianMeals.GatherState` | src/services/api.ts:146-161 | After gathering, `indian:area` is as the area fetch from the starting state leaves it. After a successful area fetch, each keyword's key is as that keyword's own `fetchCached` from the starting state leaves it. Every other key is unchanged. |
| `IndianMeals.GatherKeywords` | src/services/api.ts:153-169 | After a successful area fetch: nine keyword results, result i being exactly keyword i's own `fetchCached` from the state the area fetch left, and the requests the area fetch's followed by the searches for the keywords that state cannot answer. A merge exists iff every search succeeded and the area payload is a list, and it is `MergedFrom` the parts. Only keyword keys change. |
| `IndianMeals.Store` | src/services/api.ts:170-175 | Memory receives exactly the entry holding the merge stamped `now`, whatever its length. If storage accepts it, the merge is returned and the durable tier holds the same entry. If storage rejects it, the result is `[]` and the durable tier is unchanged. Only `indian:all` changes. |
| `IndianMeals.Aggregate` | src/services/api.ts:146-176 | Never throws, and the value is a list with distinct truthy ids. It makes exactly the gather's requests. A failed gather gives `[]` and writes nothing more. A gathered merge, empty or not, is put in memory under `indian:all` as exactly the entry stamped `now`, and no key other than `indian:all` changes after the gather. It is returned and stored durably when storage accepts it, and replaced by `[]` when storage rejects it. |
| `IndianMeals.FetchIndianMeals` | src/services/api.ts:129-177 | Never throws. A fresh `indian:all` is returned with no request and no write. On a miss there are two outcomes. Either `indian:all` stays unwritten and the result is `[]`. Or memory holds a fresh merge stamped `now` with distinct truthy ids; it is the result and is stored durably iff storage accepts writes. Otherwise the result is `[]` and storage holds nothing new under `indian:all`. At most ten requests are made. Only the aggregate's own keys change. |
| `IndianMeals.ColdStartMergesResponses` | src/services/api.ts:146-172 | On an empty cache that accepts writes, where every request answers, the result is the merge of the area list followed by the keyword lists in keyword order, and it is stored under `indian:all`. |
| `IndianMeals.EmptyMergeIsCached` | src/services/api.ts:129-172 | When storage accepts writes and every sub-request of a first launch answers with no meals, `[]` is stored under `indian:all`, and the next call within the TTL returns it with no request. |
| `IndianMeals.SecondCallIsHit` | src/services/api.ts:129-132 | After a stored non-empty merge, a call within the TTL returns it with no request at all. |
| `IndianMeals.GatherFailureDegrades` | src/services/api.ts:146-176 | When the gather step fails, the result is `[]` and `indian:all` is written in neither tier. |
| `IndianMeals.AreaFailureDegrades` | src/services/api.ts:146-176 | An uncached area fetch that fails gives `[]` after exactly one request, and `indian:all` stays unwritten. |
| `IndianMeals.KeywordFailureDegrades` | src/services/api.ts:153-176 | One uncached failing keyword search gives `[]`, and `indian:all` stays unwritten. |
| `IndianMeals.RejectedFinalWriteStillServesMemory` | src/services/api.ts:170-176 | When the final durable write is rejected, the call returns `[]`. But memory holds the merge, so the next call returns it with no request, while storage still lacks `indian:all`. |

## Left out

- AsyncStorage reads and removals are assumed to succeed. A rejected `getItem` would make a read throw, and a rejected `removeItem` would be caught as a miss; neither is modelled. A rejected `setItem` is modelled.
- Storage contents are abstracted from JSON text. A durable value is an entry or an unreadable value. Unparseable text, the empty string and JSON `null` all behave as a miss that changes nothing. A parsed value without a numeric stamp is an entry with no stamp.
- Response bodies are abstracted from JSON text. A body is a JSON object with an optional `meals` list, or a body that fails to parse, which throws.
- The clock is read once per operation. The source calls `Date.now()` separately for the memory and durable checks and for each sub-fetch, and time may pass between them.
- `Promise.all` and `await` interleaving are not modelled. The keyword searches run one after another in list order. Each touches only its own key, so this changes nothing: `IndianMeals.FetchKeywords` proves that each result and request equals that keyword's own fetch from the starting state, and `IndianMeals.FetchKeywordsState` that each keyword's key ends in the state that fetch leaves. The merge order does not depend on completion order. A rejection is reported after all nine have run, not when the first one fails.
- Network failures are not a separate case. A `fetch` that rejects with no response throws the runtime's own error, not "API error". The model gives such a request to the remote function as a non-ok response, so it is reported as `ApiError`. The cache effect is the same: nothing is written.
- `console.error` logging in the aggregate's error path is not modelled.
- URL construction is abstracted. An endpoint datatype stands for each URL, and no encoding is done on query strings.
- The `text` argument that a caller passes to `fetchIndianMeals` is ignored by it, so it is not modelled.
- The UI components, screens and theme constants are presentation only and are not part of this model.
- IndianMeals.FetchIndianMeals: its own contract states the shape of a merged result (distinct truthy ids), not its contents. The contents are stated one level down: by `IndianMeals.Aggregate` in terms of `IndianMeals.Gather`, whose merge is `MergedFrom` the sub-lists, and `IndianMeals.GatherSourced` makes each sub-list the result of its own `fetchCached` on the starting state. They are pinned to the remote's answers only for a first launch, by `IndianMeals.ColdStartMergesResponses`.
- The two cache copies' memory maps are not modelled side by side. A `Cache` value is one copy's memory plus the shared storage. An operation of the other copy on the same storage is modelled only as a different view of that storage, as in `TtlCache.StandaloneEvictsEmbeddedEntry`.
- TtlCache.SetCache: whether storage accepts a write is one flag, `writable`, for the whole state, not a per-write outcome. So the model cannot express a final write that is rejected after the sub-writes of the same call succeeded, for example when only the larger merged payload exceeds the quota. `IndianMeals.RejectedFinalWriteStillServesMemory` is therefore stated for the case where every sub-list is already a memory hit.

=== FILE: fetcher.dfy ===
/**
 The cache-or-fetch policy of the API module and the query functions built on
 it. The remote recipe API is the parameter `remote`, a function from the
 endpoint requested to its response; every call reports the endpoints it
 requested, in order, so that "no request was made" can be stated. All calls
 use the embedded cache copy, whose entries are stamped in field `time`.
 */
module Fetcher {
  import opened Records
  import opened TtlCache

  /** The four remote endpoints, standing for the URLs built on the API's base address. */
  datatype Endpoint =
    | SearchByName(term: string)
    | FilterArea(area: string)
    | FilterCategory(category: string)
    | LookupById(id: string)

  /** A response body: a JSON object whose `meals` may be null or absent, or a body that does not parse. */
  datatype Body = Json(meals: Option<seq<Meal>>) | NotJson

  datatype Response = Response(ok: bool, body: Body)

  type Remote = Endpoint -> Response

  /**
   What a call can throw once a response has arrived: a non-ok status, an
   unparseable body, a rejected durable write. A request that gets no
   response at all is given to the model as a non-ok response.
   */
  datatype Error = ApiError | BadBody | StorageFailed

  datatype Result<+T> = Ok(value: T) | Thrown(error: Error)

  /** The outcome of a cache-backed call: the new cache, the endpoints requested, and the value or error. */
  datatype Run<+T> = Run(cache: Cache, fetched: seq<Endpoint>, result: Result<T>)

  function SearchKey(query: string): string { "search:" + query }
  function AreaKey(area: string): string { "area:" + area }
  function CategoryKey(category: string): string { "category:" + category }
  function MealKey(id: string): string { "meal:" + id }
  const PopularKey: string := "popular"

  /** `json.meals ?? []`: a null or absent list is the empty list. */
  function MealsOrEmpty(meals: Option<seq<Meal>>): seq<Meal> {
    match meals
    case Some(list) => list
    case None => []
  }

  /**
   fetchCached. A hit returns the cached data with no request and no write.
   On a miss one request is made; a non-ok status or an unparseable body
   throws before anything is written; otherwise the list (empty when
   `meals` is null) is written under `key` and returned, unless the durable
   write is rejected, in which case the call throws with memory already
   updated.
   */
  function FetchCached(c: Cache, url: Endpoint, key: string, remote: Remote, now: int): (r: Run<Payload>)
    ensures SameElsewhere(c, r.cache, key)
    ensures r.fetched == [] <==> GetCache(c, Time, key, now).data.Some?
    ensures r.fetched == [] ==>
              && r.result == Ok(GetCache(c, Time, key, now).data.value)
              && r.cache == GetCache(c, Time, key, now).cache
    ensures r.fetched != [] ==> r.fetched == [url]
    ensures r.fetched != [] && (!remote(url).ok || remote(url).body.NotJson?) ==>
              && r.result == Thrown(if remote(url).ok then BadBody else ApiError)
              && r.cache == GetCache(c, Time, key, now).cache
    ensures r.fetched != [] && remote(url).ok && remote(url).body.Json? ==>
              && FreshInMemory(r.cache, Time, key, now)
              && (r.result.Ok? <==> c.writable)
              && (r.result.Thrown? ==> r.result.error == StorageFailed)
              && r.cache.memory[key] == Stamped(Time, Meals(MealsOrEmpty(remote(url).body.meals)), now)
    ensures r.fetched != [] && r.result.Ok? ==>
              key in r.cache.durable && r.cache.durable[key] == Parsed(r.cache.memory[key])
    ensures r.result == Thrown(StorageFailed) ==> r.cache.durable == GetCache(c, Time, key, now).cache.durable
    ensures r.result.Ok? ==> FreshInMemory(r.cache, Time, key, now) && r.cache.memory[key].data == r.result.value
  {
    var read := GetCache(c, Time, key, now);
    if read.data.Some? then
      Run(read.cache, [], Ok(read.data.value))
    else
      var res := remote(url);
      if !res.ok then
        Run(read.cache, [url], Thrown(ApiError))
      else
        match res.body
        case NotJson => Run(read.cache, [url], Thrown(BadBody))
        case Json(meals) =>
          var list := MealsOrEmpty(meals);
          var w := SetCache(read.cache, Time, key, Meals(list), now);
          Run(w.cache, [url], if w.ok then Ok(Meals(list)) else Thrown(StorageFailed))
  }

  /**
   After a call that went to the network and succeeded at time `t`, any call
   for the same key within the TTL is answered from memory: same value, no
   request, whatever the remote would now say.
   */
  lemma FetchThenHit(c: Cache, url: Endpoint, key: string, remote: Remote, remote': Remote, t: int, t': int)
    requires t <= t' < t + CacheTtl
    requires FetchCached(c, url, key, remote, t).fetched != []
    requires FetchCached(c, url, key, remote, t).result.Ok?
    ensures var first := FetchCached(c, url, key, remote, t);
            FetchCached(first.cache, url, key, remote', t') == Run(first.cache, [], first.result)
  {
  }

  /**
   A cached fetch of `key` depends only on what the two tiers hold for `key`
   and on whether storage accepts writes: states that agree there make the
   same request and get the same answer.
   */
  lemma FetchCachedLocal(c: Cache, c': Cache, url: Endpoint, key: string, remote: Remote, now: int)
    requires SameAt(c, c', key) && c.writable == c'.writable
    ensures FetchCached(c, url, key, remote, now).fetched == FetchCached(c', url, key, remote, now).fetched
    ensures FetchCached(c, url, key, remote, now).result == FetchCached(c', url, key, remote, now).result
  {
    ReadIsLocal(c, c', Time, key, now);
  }

  /** States that agree at `key` and on `writable` also leave `key` in the same state after a cached fetch of it. */
  lemma FetchStateLocal(c: Cache, c': Cache, url: Endpoint, key: string, remote: Remote, now: int)
    requires SameAt(c, c', key) && c.writable == c'.writable
    ensures SameAt(FetchCached(c, url, key, remote, now).cache, FetchCached(c', url, key, remote, now).cache, key)
  {
  }

  /**
   A successful response with null or absent `meals` resolves to the empty
   list, and the empty list is what both tiers now hold for the key.
   */
  lemma NullMealsCachedAsEmpty(c: Cache, url: Endpoint, key: string, remote: Remote, now: int)
    requires GetCache(c, Time, key, now).data.None?
    requires remote(url) == Response(true, Json(None))
    requires c.writable
    ensures var r := FetchCached(c, url, key, remote, now);
            && r.result == Ok(Meals([]))
            && r.cache.durable[key] == Parsed(Stamped(Time, Meals([]), now))
  {
  }

  /** searchMeals: endpoint search-by-name, key `search:<query>`. */
  function SearchMeals(c: Cache, query: string, remote: Remote, now: int): (r: Run<Payload>)
    ensures SameElsewhere(c, r.cache, SearchKey(query))
    ensures r.fetched == [] || r.fetched == [SearchByName(query)]
    ensures r.result.Ok? ==> FreshInMemory(r.cache, Time, SearchKey(query), now)
  {
    FetchCached(c, SearchByName(query), SearchKey(query), remote, now)
  }

  /** filterByArea: endpoint filter-by-area, key `area:<area>`. */
  function FilterByArea(c: Cache, area: string, remote: Remote, now: int): (r: Run<Payload>)
    ensures SameElsewhere(c, r.cache, AreaKey(area))
    ensures r.fetched == [] || r.fetched == [FilterArea(area)]
    ensures r.result.Ok? ==> FreshInMemory(r.cache, Time, AreaKey(area), now)
  {
    FetchCached(c, FilterArea(area), AreaKey(area), remote, now)
  }

  /** filterByCategory: endpoint filter-by-category, key `category:<category>`. */
  function FilterByCategory(c: Cache, category: string, remote: Remote, now: int): (r: Run<Payload>)
    ensures SameElsewhere(c, r.cache, CategoryKey(category))
    ensures r.fetched == [] || r.fetched == [FilterCategory(category)]
    ensures r.result.Ok? ==> FreshInMemory(r.cache, Time, CategoryKey(category), now)
  {
    FetchCached(c, FilterCategory(category), CategoryKey(category), remote, now)
  }

  /** fetchPopularMeals: a search for the empty term, cached under the fixed key `popular`. */
  function FetchPopularMeals(c: Cache, remote: Remote, now: int): (r: Run<Payload>)
    ensures SameElsewhere(c, r.cache, PopularKey)
    ensures r.fetched == [] || r.fetched == [SearchByName("")]
    ensures r.result.Ok? ==> FreshInMemory(r.cache, Time, PopularKey, now)
  {
    FetchCached(c, SearchByName(""), PopularKey, remote, now)
  }

  /** `json.meals?.[0]`: the first record, or nothing when the list is null, absent or empty. */
  function FirstMeal(meals: Option<seq<Meal>>): Option<Meal> {
    if meals.Some? && |meals.value| > 0 then Some(meals.value[0]) else None
  }

  /**
   getMealDetails. Same cache policy under key `meal:<id>`, but the value
   is the first record of the response, and it is written to the cache only
   when it exists: "not found" resolves to nothing and is never cached.
   */
  function GetMealDetails(c: Cache, id: string, remote: Remote, now: int): (r: Run<Option<Payload>>)
    ensures SameElsewhere(c, r.cache, MealKey(id))
    ensures r.fetched == [] <==> GetCache(c, Time, MealKey(id), now).data.Some?
    ensures r.fetched == [] ==>
              && r.result == Ok(GetCache(c, Time, MealKey(id), now).data)
              && r.cache == GetCache(c, Time, MealKey(id), now).cache
    ensures r.fetched != [] ==> r.fetched == [LookupById(id)]
    ensures r.fetched != [] && (!remote(LookupById(id)).ok || remote(LookupById(id)).body.NotJson?) ==>
              && r.result == Thrown(if remote(LookupById(id)).ok then BadBody else ApiError)
              && r.cache == GetCache(c, Time, MealKey(id), now).cache
    ensures r.result == Ok(None) ==>
              && r.cache == GetCache(c, Time, MealKey(id), now).cache
              && MealKey(id) !in r.cache.memory
    ensures r.fetched != [] && remote(LookupById(id)).ok && remote(LookupById(id)).body.Json? ==>
              var first := FirstMeal(remote(LookupById(id)).body.meals);
              && (first.None? ==> r.result == Ok(None))
              && (first.Some? && c.writable ==> r.result == Ok(Some(One(first.value))))
              && (first.Some? && !c.writable ==> r.result == Thrown(StorageFailed))
              && (first.Some? ==> FreshInMemory(r.cache, Time, MealKey(id), now)
                                  && r.cache.memory[MealKey(id)] == Stamped(Time, One(first.value), now))
    ensures r.fetched != [] && r.result.Ok? && r.result.value.Some? ==>
              MealKey(id) in r.cache.durable && r.cache.durable[MealKey(id)] == Parsed(r.cache.memory[MealKey(id)])
    ensures r.result == Thrown(StorageFailed) ==>
              r.cache.durable == GetCache(c, Time, MealKey(id), now).cache.durable
  {
    var key := MealKey(id);
    var read := GetCache(c, Time, key, now);
    if read.data.Some? then
      Run(read.cache, [], Ok(read.data))
    else
      var res := remote(LookupById(id));
      if !res.ok then
        Run(read.cache, [LookupById(id)], Thrown(ApiError))
      else
        match res.body
        case NotJson => Run(read.cache, [LookupById(id)], Thrown(BadBody))
        case Json(meals) =>
          var first := FirstMeal(meals);
          if first.None? then
            Run(read.cache, [LookupById(id)], Ok(None))
          else
            var w := SetCache(read.cache, Time, key, One(first.value), now);
            Run(w.cache, [LookupById(id)], if w.ok then Ok(Some(One(first.value))) else Thrown(StorageFailed))
  }

  /**
   A detail lookup that found nothing leaves the key uncached, so the next
   lookup asks the remote again.
   */
  lemma NotFoundIsRefetched(c: Cache, id: string, remote: Remote, now: int)
    requires GetMealDetails(c, id, remote, now).fetched != []
    requires GetMealDetails(c, id, remote, now).result == Ok(None)
    ensures var r := GetMealDetails(c, id, remote, now);
            GetMealDetails(r.cache, id, remote, now).fetched == [LookupById(id)]
  {
  }

  lemma PrefixedKeysDiffer(p: string, q: string, a: string, b: string)
    requires |p| > 0 && |q| > 0 && p[0] != q[0]
    ensures p + a != q + b
  {
    assert (p + a)[0] == p[0];
    assert (q + b)[0] == q[0];
  }

  lemma PrefixedKeyInjective(p: string, a: string, b: string)
    requires p + a == p + b
    ensures a == b
  {
    assert a == (p + a)[|p|..];
    assert b == (p + b)[|p|..];
  }

  /**
   The query kinds live in disjoint key namespaces, and each key names its
   argument uniquely, so no two different queries share a cache entry.
   */
  lemma QueryKeysDistinct(q: string, a: string, k: string, id: string)
    ensures SearchKey(q) != AreaKey(a) && SearchKey(q) != CategoryKey(k) && SearchKey(q) != MealKey(id)
    ensures AreaKey(a) != CategoryKey(k) && AreaKey(a) != MealKey(id) && CategoryKey(k) != MealKey(id)
    ensures PopularKey != SearchKey(q) && PopularKey != AreaKey(a)
    ensures PopularKey != CategoryKey(k) && PopularKey != MealKey(id)
  {
    PrefixedKeysDiffer("search:", "area:", q, a);
    PrefixedKeysDiffer("search:", "category:", q, k);
    PrefixedKeysDiffer("search:", "meal:", q, id);
    PrefixedKeysDiffer("area:", "category:", a, k);
    PrefixedKeysDiffer("area:", "meal:", a, id);
    PrefixedKeysDiffer("category:", "meal:", k, id);
    PrefixedKeysDiffer("popular", "search:", [], q);
    PrefixedKeysDiffer("popular", "area:", [], a);
    PrefixedKeysDiffer("popular", "category:", [], k);
    PrefixedKeysDiffer("popular", "meal:", [], id);
    assert "popular" + [] == PopularKey;
  }

  lemma QueryKeysInjective(q: string, q': string)
    ensures SearchKey(q) == SearchKey(q') ==> q == q'
    ensures AreaKey(q) == AreaKey(q') ==> q == q'
    ensures CategoryKey(q) == CategoryKey(q') ==> q == q'
    ensures MealKey(q) == MealKey(q') ==> q == q'
  {
    if SearchKey(q) == SearchKey(q') { PrefixedKeyInjective("search:", q, q'); }
    if AreaKey(q) == AreaKey(q') { PrefixedKeyInjective("area:", q, q'); }
    if CategoryKey(q) == CategoryKey(q') { PrefixedKeyInjective("category:", q, q'); }
    if MealKey(q) == MealKey(q') { PrefixedKeyInjective("meal:", q, q'); }
  }
}

=== FILE: indian_meals.dfy ===
/**
 The aggregated Indian-cuisine view. A fresh `indian:all` entry answers at
 once. Otherwise the area filter for "Indian" is fetched (key `indian:area`),
 then the nine keyword searches (keys `indian:kw:<keyword>`), each through
 the cache-or-fetch policy; the lists are merged by id and the merge is
 cached under `indian:all`. Any failure on the way degrades to the empty
 list: the call never throws.

 The keyword searches are started together and awaited together. Each one
 touches only its own key, so they are modelled as running to completion
 one after another in list order; all of them run even when one of them
 fails, as they are all issued before any settles.
 */
module IndianMeals {
  import opened Records
  import opened TtlCache
  import opened Fetcher
  import opened MealMerge

  const AllKey: string := "indian:all"
  const AreaSubKey: string := "indian:area"
  const IndianArea: Endpoint := FilterArea("Indian")
  const Keywords: seq<string> := ["chicken", "curry", "masala", "paneer", "dal", "biryani", "tikka", "kofta", "sabzi"]

  function KeywordKey(keyword: string): string { "indian:kw:" + keyword }

  /** One of the ten requests the aggregate may make: the area filter or a keyword search. */
  predicate SubRequest(e: Endpoint) {
    e == IndianArea || (e.SearchByName? && e.term in Keywords)
  }

  /** The keys of the keyword namespace, `indian:kw:` followed by anything. */
  predicate IsKeywordKey(k: string) {
    |k| >= 10 && k[..10] == "indian:kw:"
  }

  /**
   `fs` is a run of searches for keywords of `kws` in list order, each
   position of `kws` searched at most once.
   */
  predicate SearchesAmong(fs: seq<Endpoint>, kws: seq<string>)
    decreases |kws|
  {
    if kws == [] then fs == []
    else
      || SearchesAmong(fs, kws[1..])
      || (fs != [] && fs[0] == SearchByName(kws[0]) && SearchesAmong(fs[1..], kws[1..]))
  }

  /** The keyword searches' outcome: final cache, endpoints requested, and each search's result in list order. */
  datatype Batch = Batch(cache: Cache, fetched: seq<Endpoint>, results: seq<Result<Payload>>)

  /**
   Result `i` of the batch belongs to keyword `i`: a failure was requested
   from the remote, and a success is what memory holds fresh for that
   keyword's key at the end.
   */
  predicate Held(b: Batch, kws: seq<string>, now: int) {
    && |b.results| == |kws|
    && (forall i :: 0 <= i < |kws| && b.results[i].Thrown? ==> SearchByName(kws[i]) in b.fetched)
    && (forall i :: 0 <= i < |kws| && b.results[i].Ok? ==>
          && FreshInMemory(b.cache, Time, KeywordKey(kws[i]), now)
          && b.cache.memory[KeywordKey(kws[i])].data == b.results[i].value)
  }

  /** Every entry fresh in memory in `c` is still there, unchanged, in `c'`. */
  ghost predicate KeepsFresh(c: Cache, c': Cache, now: int) {
    forall k :: FreshInMemory(c, Time, k, now) ==> FreshInMemory(c', Time, k, now) && c'.memory[k] == c.memory[k]
  }

  /**
   The searches that keyword calls started from `c` request: one for each
   keyword, in list order, whose key `c` cannot answer.
   */
  function Misses(c: Cache, kws: seq<string>, now: int): seq<Endpoint>
    decreases |kws|
  {
    if kws == [] then []
    else
      (if GetCache(c, Time, KeywordKey(kws[0]), now).data.Some? then [] else [SearchByName(kws[0])])
      + Misses(c, kws[1..], now)
  }

  /** Result `i` is what keyword `i`'s own cached fetch, run on `c`, returns. */
  predicate FromCache(results: seq<Result<Payload>>, c: Cache, kws: seq<string>, remote: Remote, now: int) {
    && |results| == |kws|
    && forall i :: 0 <= i < |kws| ==>
         results[i] == FetchCached(c, SearchByName(kws[i]), KeywordKey(kws[i]), remote, now).result
  }

  /**
   The keyword searches, in list order: one search at most per position,
   result `i` belonging to keyword `i`. An entry already fresh in memory is
   left alone, and only keyword keys change. When no keyword repeats, running
   the searches one after another is the same as running each on its own
   from `c`: each result is that keyword's own cached fetch from `c`, and
   the requests are exactly the keywords `c` cannot answer.
   */
  function FetchKeywords(c: Cache, kws: seq<string>, remote: Remote, now: int): (b: Batch)
    decreases |kws|
    ensures Held(b, kws, now)
    ensures SearchesAmong(b.fetched, kws)
    ensures KeepsFresh(c, b.cache, now)
    ensures b.cache.writable == c.writable
    ensures forall k :: !IsKeywordKey(k) ==> SameAt(c, b.cache, k)
    ensures Distinct(kws) ==> FromCache(b.results, c, kws, remote, now) && b.fetched == Misses(c, kws, now)
  {
    if kws == [] then Batch(c, [], [])
    else
      var key := KeywordKey(kws[0]);
      var first := FetchCached(c, SearchByName(kws[0]), key, remote, now);
      var rest := FetchKeywords(first.cache, kws[1..], remote, now);
      KeywordKeyIsKeyword(kws[0]);
      SameElsewhereEverywhere(c, first.cache, key);
      FetchCachedKeepsFresh(c, SearchByName(kws[0]), key, remote, now);
      ConsHeld(first, rest, kws, now);
      KeepsFreshTrans(c, first.cache, rest.cache, now);
      KeywordFrameTrans(c, first.cache, rest.cache);
      ConsFromCache(c, first, rest, kws, remote, now);
      Batch(rest.cache, first.fetched + rest.fetched, [first.result] + rest.results)
  }

  /** States that agree on every keyword key of `kws` (and on `writable`) run the same keyword fetches. */
  lemma {:induction false} SameOnKeywords(c: Cache, c': Cache, kws: seq<string>, remote: Remote, now: int)
    requires c.writable == c'.writable
    requires forall w :: w in kws ==> SameAt(c, c', KeywordKey(w))
    ensures forall rs :: FromCache(rs, c', kws, remote, now) ==> FromCache(rs, c, kws, remote, now)
    ensures Misses(c, kws, now) == Misses(c', kws, now)
    decreases |kws|
  {
    forall i | 0 <= i < |kws|
      ensures FetchCached(c, SearchByName(kws[i]), KeywordKey(kws[i]), remote, now).result
              == FetchCached(c', SearchByName(kws[i]), KeywordKey(kws[i]), remote, now).result
    {
      FetchCachedLocal(c, c', SearchByName(kws[i]), KeywordKey(kws[i]), remote, now);
    }
    if kws != [] {
      ReadIsLocal(c, c', Time, KeywordKey(kws[0]), now);
      SameOnKeywords(c, c', kws[1..], remote, now);
    }
  }

  /**
   One step of the batch, when no keyword repeats: the first keyword's fetch
   changes only its own key, so the rest run from its state as from `c`.
   */
  lemma ConsFromCache(c: Cache, first: Run<Payload>, rest: Batch, kws: seq<string>, remote: Remote, now: int)
    requires |kws| > 0
    requires first == FetchCached(c, SearchByName(kws[0]), KeywordKey(kws[0]), remote, now)
    requires Distinct(kws[1..]) ==>
               FromCache(rest.results, first.cache, kws[1..], remote, now) && rest.fetched == Misses(first.cache, kws[1..], now)
    ensures Distinct(kws) ==>
              && FromCache([first.result] + rest.results, c, kws, remote, now)
              && first.fetched + rest.fetched == Misses(c, kws, now)
  {
    if Distinct(kws) {
      assert Distinct(kws[1..]);
      forall w | w in kws[1..]
        ensures SameAt(c, first.cache, KeywordKey(w))
      {
        if KeywordKey(w) == KeywordKey(kws[0]) {
          KeywordKeyInjective(w, kws[0]);
        }
        SameElsewhereAt(c, first.cache, KeywordKey(kws[0]), KeywordKey(w));
      }
      SameOnKeywords(c, first.cache, kws[1..], remote, now);
      var rs := [first.result] + rest.results;
      forall i | 0 <= i < |kws|
        ensures rs[i] == FetchCached(c, SearchByName(kws[i]), KeywordKey(kws[i]), remote, now).result
      {
        if i > 0 {
          assert rs[i] == rest.results[i - 1];
          assert kws[i] == kws[1..][i - 1];
        }
      }
    }
  }

  /** `k` is not the key of any keyword of `kws`. */
  predicate Unlisted(k: string, kws: seq<string>) {
    forall i :: 0 <= i < |kws| ==> k != KeywordKey(kws[i])
  }

  /** The batch leaves every key of no listed keyword as it was in `c`. */
  lemma {:induction false} FetchKeywordsUnlisted(c: Cache, kws: seq<string>, remote: Remote, now: int)
    ensures forall k :: Unlisted(k, kws) ==> SameAt(c, FetchKeywords(c, kws, remote, now).cache, k)
    decreases |kws|
  {
    if kws != [] {
      var key := KeywordKey(kws[0]);
      var first := FetchCached(c, SearchByName(kws[0]), key, remote, now);
      var rest := FetchKeywords(first.cache, kws[1..], remote, now);
      assert FetchKeywords(c, kws, remote, now).cache == rest.cache;
      FetchKeywordsUnlisted(first.cache, kws[1..], remote, now);
      forall k | Unlisted(k, kws)
        ensures SameAt(c, rest.cache, k)
      {
        assert k != KeywordKey(kws[0]);
        UnlistedTail(k, kws);
        SameElsewhereAt(c, first.cache, key, k);
        SameAtTrans(c, first.cache, rest.cache, k);
      }
    }
  }

  lemma UnlistedTail(k: string, kws: seq<string>)
    requires |kws| > 0 && Unlisted(k, kws)
    ensures Unlisted(k, kws[1..])
  {
    forall j | 0 <= j < |kws| - 1
      ensures k != KeywordKey(kws[1..][j])
    {
      assert kws[1..][j] == kws[j + 1];
    }
  }

  /** In a list without repeats, the first keyword's key is no key of the others. */
  lemma FirstKeyUnlisted(kws: seq<string>)
    requires |kws| > 0 && Distinct(kws)
    ensures Unlisted(KeywordKey(kws[0]), kws[1..])
  {
    forall j | 0 <= j < |kws| - 1
      ensures KeywordKey(kws[0]) != KeywordKey(kws[1..][j])
    {
      assert kws[1..][j] == kws[j + 1];
      if KeywordKey(kws[0]) == KeywordKey(kws[1..][j]) {
        KeywordKeyInjective(kws[0], kws[1..][j]);
      }
    }
  }

  /**
   The state a batch of distinct keywords leaves at each keyword's key, in
   both tiers, is what that keyword's own cached fetch from `c` leaves there.
   */
  lemma {:induction false} FetchKeywordsState(c: Cache, kws: seq<string>, remote: Remote, now: int)
    requires Distinct(kws)
    ensures forall i :: 0 <= i < |kws| ==>
              SameAt(FetchKeywords(c, kws, remote, now).cache,
                     FetchCached(c, SearchByName(kws[i]), KeywordKey(kws[i]), remote, now).cache,
                     KeywordKey(kws[i]))
    decreases |kws|
  {
    if kws != [] {
      var key := KeywordKey(kws[0]);
      var first := FetchCached(c, SearchByName(kws[0]), key, remote, now);
      var rest := FetchKeywords(first.cache, kws[1..], remote, now);
      assert FetchKeywords(c, kws, remote, now).cache == rest.cache;
      assert Distinct(kws[1..]);
      FetchKeywordsState(first.cache, kws[1..], remote, now);
      FirstKeyUnlisted(kws);
      FetchKeywordsUnlisted(first.cache, kws[1..], remote, now);
      forall i | 0 <= i < |kws|
        ensures SameAt(rest.cache, FetchCached(c, SearchByName(kws[i]), KeywordKey(kws[i]), remote, now).cache, KeywordKey(kws[i]))
      {
        if i == 0 {
          SameAtSym(first.cache, rest.cache, key);
        } else {
          assert kws[i] == kws[1..][i - 1];
          LaterKeyStep(c, first.cache, rest.cache, kws[0], kws[i], remote, now);
        }
      }
    }
  }

  /**
   A later keyword `w` of the batch: the first fetch (for `w0`) leaves `w`'s
   key alone, so `w`'s fetch from the state after it ends as from `c`.
   */
  lemma LaterKeyStep(c: Cache, first: Cache, rest: Cache, w0: string, w: string, remote: Remote, now: int)
    requires w != w0
    requires first == FetchCached(c, SearchByName(w0), KeywordKey(w0), remote, now).cache
    requires SameAt(rest, FetchCached(first, SearchByName(w), KeywordKey(w), remote, now).cache, KeywordKey(w))
    ensures SameAt(rest, FetchCached(c, SearchByName(w), KeywordKey(w), remote, now).cache, KeywordKey(w))
  {
    if KeywordKey(w) == KeywordKey(w0) {
      KeywordKeyInjective(w, w0);
    }
    KeyStep(c, first, rest, KeywordKey(w0), w, remote, now);
  }

  /**
   A step that changed only `key0` leaves keyword `w`'s key alone, so `w`'s
   fetch run after it ends, at `w`'s key, as when run on `c`.
   */
  lemma KeyStep(c: Cache, mid: Cache, rest: Cache, key0: string, w: string, remote: Remote, now: int)
    requires SameElsewhere(c, mid, key0) && KeywordKey(w) != key0
    requires SameAt(rest, FetchCached(mid, SearchByName(w), KeywordKey(w), remote, now).cache, KeywordKey(w))
    ensures SameAt(rest, FetchCached(c, SearchByName(w), KeywordKey(w), remote, now).cache, KeywordKey(w))
  {
    var k := KeywordKey(w);
    SameElsewhereAt(c, mid, key0, k);
    FetchStateLocal(mid, c, SearchByName(w), k, remote, now);
    SameAtTrans(rest, FetchCached(mid, SearchByName(w), k, remote, now).cache,
                FetchCached(c, SearchByName(w), k, remote, now).cache, k);
  }

  /** A run of searches among `kws` has at most one request per keyword position, each for a listed keyword. */
  lemma {:induction false} SearchesAmongBounds(fs: seq<Endpoint>, kws: seq<string>)
    requires SearchesAmong(fs, kws)
    ensures |fs| <= |kws|
    ensures forall e :: e in fs ==> e.SearchByName? && e.term in kws
    decreases |kws|
  {
    if kws != [] {
      if SearchesAmong(fs, kws[1..]) {
        SearchesAmongBounds(fs, kws[1..]);
      } else {
        SearchesAmongBounds(fs[1..], kws[1..]);
        assert fs == [fs[0]] + fs[1..];
      }
    }
  }

  lemma KeepsFreshTrans(c1: Cache, c2: Cache, c3: Cache, now: int)
    requires KeepsFresh(c1, c2, now) && KeepsFresh(c2, c3, now)
    ensures KeepsFresh(c1, c3, now)
  {
  }

  lemma KeywordFrameTrans(c1: Cache, c2: Cache, c3: Cache)
    requires forall k :: !IsKeywordKey(k) ==> SameAt(c1, c2, k)
    requires forall k :: !IsKeywordKey(k) ==> SameAt(c2, c3, k)
    ensures forall k :: !IsKeywordKey(k) ==> SameAt(c1, c3, k)
  {
    forall k | !IsKeywordKey(k)
      ensures SameAt(c1, c3, k)
    {
      SameAtTrans(c1, c2, c3, k);
    }
  }

  lemma KeywordKeyIsKeyword(w: string)
    ensures IsKeywordKey(KeywordKey(w))
  {
    assert KeywordKey(w)[..10] == "indian:kw:";
  }

  /** One cached fetch leaves every other fresh memory entry alone, and its own too when it was a hit. */
  lemma FetchCachedKeepsFresh(c: Cache, url: Endpoint, key: string, remote: Remote, now: int)
    ensures KeepsFresh(c, FetchCached(c, url, key, remote, now).cache, now)
  {
    var r := FetchCached(c, url, key, remote, now);
    forall k | FreshInMemory(c, Time, k, now)
      ensures FreshInMemory(r.cache, Time, k, now) && r.cache.memory[k] == c.memory[k]
    {
      if k != key {
        SameElsewhereAt(c, r.cache, key, k);
      }
    }
  }

  /** One step of the batch: the first keyword's fetch followed by the rest keeps each result with its keyword. */
  lemma ConsHeld(first: Run<Payload>, rest: Batch, kws: seq<string>, now: int)
    requires |kws| > 0
    requires first.fetched == [] || first.fetched == [SearchByName(kws[0])]
    requires first.result.Thrown? ==> first.fetched != []
    requires first.result.Ok? ==>
               FreshInMemory(first.cache, Time, KeywordKey(kws[0]), now)
               && first.cache.memory[KeywordKey(kws[0])].data == first.result.value
    requires Held(rest, kws[1..], now)
    requires SearchesAmong(rest.fetched, kws[1..])
    requires KeepsFresh(first.cache, rest.cache, now)
    ensures var b := Batch(rest.cache, first.fetched + rest.fetched, [first.result] + rest.results);
            Held(b, kws, now) && SearchesAmong(b.fetched, kws)
  {
    var b := Batch(rest.cache, first.fetched + rest.fetched, [first.result] + rest.results);
    forall i | 0 <= i < |kws| && b.results[i].Thrown?
      ensures SearchByName(kws[i]) in b.fetched
    {
      if i > 0 {
        assert b.results[i] == rest.results[i - 1];
        assert kws[i] == kws[1..][i - 1];
      }
    }
    forall i | 0 <= i < |kws| && b.results[i].Ok?
      ensures FreshInMemory(b.cache, Time, KeywordKey(kws[i]), now)
      ensures b.cache.memory[KeywordKey(kws[i])].data == b.results[i].value
    {
      if i > 0 {
        assert b.results[i] == rest.results[i - 1];
        assert kws[i] == kws[1..][i - 1];
      }
    }
    if first.fetched == [] {
      assert b.fetched == rest.fetched;
    } else {
      assert b.fetched[1..] == rest.fetched;
    }
  }

  predicate AllOk(rs: seq<Result<Payload>>) {
    forall i :: 0 <= i < |rs| ==> rs[i].Ok?
  }

  /** The records of one payload once flattened one level: a list's records, or the single record. */
  function Items(p: Payload): seq<Meal> {
    match p
    case Meals(list) => list
    case One(m) => [m]
  }

  /** `keywordResults.flat()`. */
  function Flat(rs: seq<Result<Payload>>): seq<Meal>
    requires AllOk(rs)
  {
    if rs == [] then [] else Items(rs[0].value) + Flat(rs[1..])
  }

  /** The empty list the aggregate degrades to. */
  const Degraded: Payload := Meals([])

  /**
   The sub-fetches' outcome: final cache, endpoints requested, the area
   fetch's result, the keyword searches' results (none if the area fetch
   threw), and the merge, or `None` if a step threw.
   */
  datatype Gathered = Gathered(
    cache: Cache,
    fetched: seq<Endpoint>,
    area: Result<Payload>,
    results: seq<Result<Payload>>,
    merged: Option<seq<Meal>>)

  /**
   Keyword result `i` belongs to keyword `i`: a failure was requested from
   the remote, and a success is what memory holds fresh for its key.
   */
  predicate ResultsHeld(g: Gathered, now: int) {
    && |g.results| <= |Keywords|
    && (forall i :: 0 <= i < |g.results| && g.results[i].Thrown? ==> SearchByName(Keywords[i]) in g.fetched)
    && (forall i :: 0 <= i < |g.results| && g.results[i].Ok? ==>
          && FreshInMemory(g.cache, Time, KeywordKey(Keywords[i]), now)
          && g.cache.memory[KeywordKey(Keywords[i])].data == g.results[i].value)
  }

  /**
   The merge exists exactly when the area fetch and every keyword search
   succeeded and the area payload is a list, and it is then the merge of
   the area list followed by the flattened keyword results.
   */
  predicate MergeOfParts(g: Gathered) {
    && (g.merged.Some? <==> g.area.Ok? && g.area.value.Meals? && AllOk(g.results))
    && (g.merged.Some? ==> MergedFrom(g.merged.value, g.area.value.list + Flat(g.results)))
  }

  /**
   The body of the `try` up to the final write: the area fetch, then (if it
   did not throw) the nine keyword searches, then the spread, flatten and
   merge (spreading a single record throws). Each sub-list merged is what
   memory holds fresh for its key afterwards.
   */
  function Gather(c: Cache, remote: Remote, now: int): (g: Gathered)
    ensures g.area.Thrown? ==> g.results == [] && g.merged.None? && g.fetched == [IndianArea]
    ensures g.area.Ok? ==>
              && |g.results| == |Keywords|
              && FreshInMemory(g.cache, Time, AreaSubKey, now)
              && g.cache.memory[AreaSubKey].data == g.area.value
    ensures ResultsHeld(g, now)
    ensures MergeOfParts(g)
    ensures |g.fetched| <= 1 + |Keywords|
    ensures forall e :: e in g.fetched ==> SubRequest(e)
    ensures forall k :: k != AreaSubKey && !IsKeywordKey(k) ==> SameAt(c, g.cache, k)
    ensures g.cache.writable == c.writable
  {
    var area := FetchCached(c, IndianArea, AreaSubKey, remote, now);
    if area.result.Thrown? then
      SameElsewhereEverywhere(c, area.cache, AreaSubKey);
      Gathered(area.cache, area.fetched, area.result, [], None)
    else
      var g := GatherKeywords(area, remote, now);
      GatherFrame(c, area.cache, g.cache);
      g
  }

  /**
   Gathering is the area fetch and the keyword fetches each run on its own
   from `c`: the sequential keyword searches see the state the area fetch
   left, which agrees with `c` on every keyword key.
   */
  lemma GatherSourced(c: Cache, remote: Remote, now: int)
    ensures Sourced(Gather(c, remote, now), c, remote, now)
  {
    var area := FetchCached(c, IndianArea, AreaSubKey, remote, now);
    if area.result.Ok? {
      AreaFetchLeavesKeywords(c, area.cache, remote, now);
    }
  }

  /**
   Each part of `g` is what its own cached fetch, run on `c`, gives: the area
   result is the area fetch's, keyword result `i` (when the area fetch
   succeeded) is keyword `i`'s fetch, and the requests are the area
   request, if `c` could not answer it, then the keywords `c` cannot answer.
   */
  predicate Sourced(g: Gathered, c: Cache, remote: Remote, now: int) {
    var area := FetchCached(c, IndianArea, AreaSubKey, remote, now);
    && g.area == area.result
    && (g.area.Ok? ==> FromCache(g.results, c, Keywords, remote, now))
    && g.fetched == area.fetched + (if g.area.Ok? then Misses(c, Keywords, now) else [])
  }

  /**
   The state gathering leaves: `indian:area` as the area fetch from `c`
   leaves it; after a successful area fetch, each keyword's key as that
   keyword's own cached fetch from `c` leaves it; every other key as in `c`.
   A failed search leaves its key just as its own fetch does.
   */
  lemma GatherState(c: Cache, remote: Remote, now: int)
    ensures var g := Gather(c, remote, now);
            var area := FetchCached(c, IndianArea, AreaSubKey, remote, now);
            && SameAt(g.cache, area.cache, AreaSubKey)
            && (area.result.Ok? ==> forall i :: 0 <= i < |Keywords| ==>
                  SameAt(g.cache, FetchCached(c, SearchByName(Keywords[i]), KeywordKey(Keywords[i]), remote, now).cache,
                         KeywordKey(Keywords[i])))
            && (forall k :: k != AreaSubKey && Unlisted(k, Keywords) ==> SameAt(c, g.cache, k))
  {
    var g := Gather(c, remote, now);
    var area := FetchCached(c, IndianArea, AreaSubKey, remote, now);
    if area.result.Thrown? {
      SameElsewhereEverywhere(c, area.cache, AreaSubKey);
    } else {
      assert g.cache == FetchKeywords(area.cache, Keywords, remote, now).cache;
      KeywordsStateAfterArea(c, area.cache, remote, now);
    }
  }

  /** `GatherState` after a successful area fetch, whose state is `area`. */
  lemma KeywordsStateAfterArea(c: Cache, area: Cache, remote: Remote, now: int)
    requires SameElsewhere(c, area, AreaSubKey)
    ensures var kw := FetchKeywords(area, Keywords, remote, now).cache;
            && SameAt(kw, area, AreaSubKey)
            && (forall i :: 0 <= i < |Keywords| ==>
                  SameAt(kw, FetchCached(c, SearchByName(Keywords[i]), KeywordKey(Keywords[i]), remote, now).cache,
                         KeywordKey(Keywords[i])))
            && (forall k :: k != AreaSubKey && Unlisted(k, Keywords) ==> SameAt(c, kw, k))
  {
    var kw := FetchKeywords(area, Keywords, remote, now).cache;
    AreaKeyNotKeyword();
    SameAtSym(area, kw, AreaSubKey);
    KeywordsDistinct();
    FetchKeywordsState(area, Keywords, remote, now);
    forall i | 0 <= i < |Keywords|
      ensures SameAt(kw, FetchCached(c, SearchByName(Keywords[i]), KeywordKey(Keywords[i]), remote, now).cache,
                     KeywordKey(Keywords[i]))
    {
      KeywordKeyIsKeyword(Keywords[i]);
      KeyStep(c, area, kw, AreaSubKey, Keywords[i], remote, now);
    }
    FetchKeywordsUnlisted(area, Keywords, remote, now);
    forall k | k != AreaSubKey && Unlisted(k, Keywords)
      ensures SameAt(c, kw, k)
    {
      SameElsewhereAt(c, area, AreaSubKey, k);
      SameAtTrans(c, area, kw, k);
    }
  }

  /** The area fetch changes only `indian:area`, so the keyword fetches run from its state as from `c`. */
  lemma AreaFetchLeavesKeywords(c: Cache, area: Cache, remote: Remote, now: int)
    requires SameElsewhere(c, area, AreaSubKey)
    ensures forall rs :: FromCache(rs, area, Keywords, remote, now) ==> FromCache(rs, c, Keywords, remote, now)
    ensures Misses(c, Keywords, now) == Misses(area, Keywords, now)
  {
    forall w | w in Keywords
      ensures SameAt(c, area, KeywordKey(w))
    {
      KeywordKeyIsKeyword(w);
      AreaKeyNotKeyword();
      SameElsewhereAt(c, area, AreaSubKey, KeywordKey(w));
    }
    SameOnKeywords(c, area, Keywords, remote, now);
  }

  /** The nine keywords are pairwise different. */
  lemma KeywordsDistinct()
    ensures Distinct(Keywords)
  {
  }

  /** The area fetch changes only `indian:area` and the keyword searches only keyword keys. */
  lemma GatherFrame(c: Cache, area: Cache, g: Cache)
    requires SameElsewhere(c, area, AreaSubKey)
    requires forall k :: !IsKeywordKey(k) ==> SameAt(area, g, k)
    ensures SameAt(area, g, AreaSubKey)
    ensures forall k :: k != AreaSubKey && !IsKeywordKey(k) ==> SameAt(c, g, k)
  {
    AreaKeyNotKeyword();
    SameElsewhereEverywhere(c, area, AreaSubKey);
    forall k | k != AreaSubKey && !IsKeywordKey(k)
      ensures SameAt(c, g, k)
    {
      SameAtTrans(c, area, g, k);
    }
  }

  /** The keyword half of `Gather`, once the area fetch `area` has succeeded: searches, spread, flatten, merge. */
  function GatherKeywords(area: Run<Payload>, remote: Remote, now: int): (g: Gathered)
    requires area.result.Ok?
    ensures g.area == area.result
    ensures |g.results| == |Keywords|
    ensures ResultsHeld(g, now)
    ensures MergeOfParts(g)
    ensures |g.fetched| <= |area.fetched| + |Keywords|
    ensures forall e :: e in g.fetched ==> e in area.fetched || SubRequest(e)
    ensures forall k :: !IsKeywordKey(k) ==> SameAt(area.cache, g.cache, k)
    ensures g.cache.writable == area.cache.writable
    ensures FromCache(g.results, area.cache, Keywords, remote, now)
    ensures g.fetched == area.fetched + Misses(area.cache, Keywords, now)
  {
    var kw := FetchKeywords(area.cache, Keywords, remote, now);
    KeywordsDistinct();
    SearchesAmongBounds(kw.fetched, Keywords);
    Gathered(kw.cache, area.fetched + kw.fetched, area.result, kw.results, Combine(area.result.value, kw.results))
  }

  /**
   `[...areaMeals, ...keywordResults.flat()]` and the merge: `None` when a
   keyword search threw (so `Promise.all` rejected) or when the area payload
   is a single record, which spreading rejects as not iterable; otherwise
   the merge of the area list followed by the flattened keyword results.
   */
  function Combine(area: Payload, results: seq<Result<Payload>>): (merged: Option<seq<Meal>>)
    ensures merged.Some? <==> AllOk(results) && area.Meals?
    ensures merged.Some? ==> MergedFrom(merged.value, area.list + Flat(results))
  {
    if !AllOk(results) || area.One? then None
    else
      var all := area.list + Flat(results);
      MergeSpec(all);
      Some(Merge(all))
  }

  /** A list with truthy, pairwise distinct ids, as every merge is. */
  predicate DistinctIds(list: seq<Meal>) {
    && (forall i :: 0 <= i < |list| ==> HasId(list[i]))
    && (forall i, j :: 0 <= i < j < |list| ==> Id(list[i]) != Id(list[j]))
  }

  /** Gathering changes only the sub-keys and the final write only `indian:all`. */
  lemma StoreFrame(c: Cache, g: Cache, w: Cache)
    requires forall k :: k != AreaSubKey && !IsKeywordKey(k) ==> SameAt(c, g, k)
    requires SameElsewhere(g, w, AllKey)
    ensures forall k :: k != AllKey && k != AreaSubKey && !IsKeywordKey(k) ==> SameAt(c, w, k)
  {
    forall k | k != AllKey && k != AreaSubKey && !IsKeywordKey(k)
      ensures SameAt(c, w, k)
    {
      SameElsewhereAt(g, w, AllKey, k);
      SameAtTrans(c, g, w, k);
    }
  }

  /** The miss read changes only `indian:all`, and the aggregate only its own keys. */
  lemma MissFrame(c: Cache, read: Cache, r: Cache)
    requires SameElsewhere(c, read, AllKey)
    requires forall k :: k != AllKey && k != AreaSubKey && !IsKeywordKey(k) ==> SameAt(read, r, k)
    ensures forall k :: k != AllKey && k != AreaSubKey && !IsKeywordKey(k) ==> SameAt(c, r, k)
  {
    forall k | k != AllKey && k != AreaSubKey && !IsKeywordKey(k)
      ensures SameAt(c, r, k)
    {
      SameElsewhereAt(c, read, AllKey, k);
      SameAtTrans(c, read, r, k);
    }
  }

  lemma MergedHasDistinctIds(r: seq<Meal>, s: seq<Meal>)
    requires MergedFrom(r, s)
    ensures DistinctIds(r)
  {
  }

  /**
   The miss path of fetchIndianMeals: gather, then write the merge under
   `indian:all`, whatever it holds (an empty merge too). A failed gather
   gives the empty list and writes nothing; a rejected durable write gives
   the empty list after memory has received the merge.
   */
  function Aggregate(c: Cache, remote: Remote, now: int): (r: Run<Payload>)
    ensures r.result.Ok? && r.result.value.Meals? && DistinctIds(r.result.value.list)
    ensures var g := Gather(c, remote, now);
            && r.fetched == g.fetched
            && (g.merged.None? ==> r.result.value == Degraded && r.cache == g.cache)
            && (g.merged.Some? ==>
                  && FreshInMemory(r.cache, Time, AllKey, now)
                  && r.cache.memory[AllKey] == Stamped(Time, Meals(g.merged.value), now)
                  && SameElsewhere(g.cache, r.cache, AllKey))
            && (g.merged.Some? && c.writable ==>
                  && r.result.value == Meals(g.merged.value)
                  && AllKey in r.cache.durable && r.cache.durable[AllKey] == Parsed(r.cache.memory[AllKey]))
            && (g.merged.Some? && !c.writable ==>
                  r.result.value == Degraded && r.cache.durable == g.cache.durable)
    ensures |r.fetched| <= 1 + |Keywords|
    ensures forall e :: e in r.fetched ==> SubRequest(e)
    ensures forall k :: k != AllKey && k != AreaSubKey && !IsKeywordKey(k) ==> SameAt(c, r.cache, k)
    ensures r.cache.writable == c.writable
  {
    var g := Gather(c, remote, now);
    if g.merged.None? then
      Run(g.cache, g.fetched, Ok(Degraded))
    else
      MergedHasDistinctIds(g.merged.value, g.area.value.list + Flat(g.results));
      var r := Store(g, now);
      StoreFrame(c, g.cache, r.cache);
      r
  }

  /**
   `await setCache("indian:all", merged)` and the return: memory receives
   the merge stamped `now`; the merge is returned when storage accepts it,
   and the empty list (the caught rejection) when it does not.
   */
  function Store(g: Gathered, now: int): (r: Run<Payload>)
    requires g.merged.Some?
    ensures r.fetched == g.fetched
    ensures FreshInMemory(r.cache, Time, AllKey, now)
    ensures r.cache.memory[AllKey] == Stamped(Time, Meals(g.merged.value), now)
    ensures g.cache.writable ==>
              && r.result == Ok(Meals(g.merged.value))
              && AllKey in r.cache.durable && r.cache.durable[AllKey] == Parsed(r.cache.memory[AllKey])
    ensures !g.cache.writable ==> r.result == Ok(Degraded) && r.cache.durable == g.cache.durable
    ensures SameElsewhere(g.cache, r.cache, AllKey)
  {
    var w := SetCache(g.cache, Time, AllKey, Meals(g.merged.value), now);
    Run(w.cache, g.fetched, Ok(if w.ok then Meals(g.merged.value) else Degraded))
  }

  /**
   fetchIndianMeals. Never throws. A hit on `indian:all` makes no request
   and no write. On a miss, either nothing is written under `indian:all`
   and the result is the empty list (a sub-fetch failed), or memory holds
   a fresh merge there, which is returned and stored when storage accepts
   it, and replaced by the empty list in the result when storage rejects
   it. Only the ten sub-keys and `indian:all` can change.
   */
  function FetchIndianMeals(c: Cache, remote: Remote, now: int): (r: Run<Payload>)
    ensures r.result.Ok?
    ensures GetCache(c, Time, AllKey, now).data.Some? ==>
              r == Run(GetCache(c, Time, AllKey, now).cache, [], Ok(GetCache(c, Time, AllKey, now).data.value))
    ensures GetCache(c, Time, AllKey, now).data.None? ==>
              r.result.value.Meals? && DistinctIds(r.result.value.list)
    ensures GetCache(c, Time, AllKey, now).data.None? && AllKey !in r.cache.memory ==>
              r.result.value == Degraded && AllKeyUnwritten(c, r.cache)
    ensures GetCache(c, Time, AllKey, now).data.None? && AllKey in r.cache.memory ==>
              && FreshInMemory(r.cache, Time, AllKey, now)
              && Stamp(r.cache.memory[AllKey], Time) == Some(now)
              && r.cache.memory[AllKey].data.Meals?
              && DistinctIds(r.cache.memory[AllKey].data.list)
              && (c.writable ==>
                    && r.result.value == r.cache.memory[AllKey].data
                    && AllKey in r.cache.durable && r.cache.durable[AllKey] == Parsed(r.cache.memory[AllKey]))
              && (!c.writable ==> r.result.value == Degraded && DurableUnwritten(c, r.cache))
    ensures |r.fetched| <= 1 + |Keywords|
    ensures forall e :: e in r.fetched ==> SubRequest(e)
    ensures forall k :: k != AllKey && k != AreaSubKey && !IsKeywordKey(k) ==> SameAt(c, r.cache, k)
    ensures r.cache.writable == c.writable
  {
    var read := GetCache(c, Time, AllKey, now);
    if read.data.Some? then
      Run(read.cache, [], Ok(read.data.value))
    else
      var r := Aggregate(read.cache, remote, now);
      MissFrame(c, read.cache, r.cache);
      AllKeyNotSub();
      r
  }

  lemma PrefixedKeyChar(p: string, a: string, i: nat)
    requires i < |p|
    ensures (p + a)[i] == p[i]
  {
  }

  /** The aggregate key and the sub-keys are pairwise different, and keyword keys name their keyword. */
  lemma IndianKeysDistinct()
    ensures AllKey != AreaSubKey
    ensures forall w :: KeywordKey(w) != AllKey && KeywordKey(w) != AreaSubKey
    ensures !IsKeywordKey(AllKey) && !IsKeywordKey(AreaSubKey)
  {
    assert AllKey[8] != AreaSubKey[8];
    assert AllKey[..10][7] != "indian:kw:"[7];
    assert AreaSubKey[..10][7] != "indian:kw:"[7];
    forall w
      ensures KeywordKey(w) != AllKey && KeywordKey(w) != AreaSubKey
    {
      PrefixedKeyChar("indian:kw:", w, 7);
      assert AllKey[7] == 'a' && AreaSubKey[7] == 'a';
    }
  }

  lemma AllKeyNotSub()
    ensures AllKey != AreaSubKey && !IsKeywordKey(AllKey)
  {
    assert AllKey[8] != AreaSubKey[8];
    assert AllKey[..10][7] != "indian:kw:"[7];
  }

  lemma AreaKeyNotKeyword()
    ensures !IsKeywordKey(AreaSubKey)
  {
    assert AreaSubKey[..10][7] != "indian:kw:"[7];
  }

  lemma KeywordKeyInjective(w: string, w': string)
    requires KeywordKey(w) == KeywordKey(w')
    ensures w == w'
  {
    assert w == KeywordKey(w)[10..];
    assert w' == KeywordKey(w')[10..];
  }

  /** The list a parseable response carries, `[]` standing for null (and for a body that does not parse). */
  function Listed(remote: Remote, e: Endpoint): seq<Meal> {
    match remote(e).body
    case Json(meals) => MealsOrEmpty(meals)
    case NotJson => []
  }

  predicate Answers(remote: Remote, e: Endpoint) {
    remote(e).ok && remote(e).body.Json?
  }

  /** The keyword lists the remote returns, concatenated in keyword order. */
  function KeywordMeals(remote: Remote, kws: seq<string>): seq<Meal> {
    if kws == [] then [] else Listed(remote, SearchByName(kws[0])) + KeywordMeals(remote, kws[1..])
  }

  /** The keyword's key is either in neither tier or holds, fresh in memory, what the remote returns for it. */
  predicate Primed(c: Cache, w: string, remote: Remote, now: int) {
    var k := KeywordKey(w);
    || (k !in c.memory && k !in c.durable)
    || (FreshInMemory(c, Time, k, now) && c.memory[k].data == Meals(Listed(remote, SearchByName(w))))
  }

  /**
   When no keyword key is cached yet and every search answers, the keyword
   results are exactly the remote's lists, in keyword order, even if a
   keyword repeats (the repeat is then a hit on the entry just written).
   */
  lemma {:induction false} KeywordsFromRemote(c: Cache, kws: seq<string>, remote: Remote, now: int)
    requires c.writable
    requires forall w :: w in kws ==> Answers(remote, SearchByName(w)) && Primed(c, w, remote, now)
    ensures var b := FetchKeywords(c, kws, remote, now);
            AllOk(b.results) && Flat(b.results) == KeywordMeals(remote, kws)
    decreases |kws|
  {
    if kws != [] {
      var w0 := kws[0];
      var first := FetchCached(c, SearchByName(w0), KeywordKey(w0), remote, now);
      assert first.result == Ok(Meals(Listed(remote, SearchByName(w0))));
      forall w | w in kws[1..]
        ensures Answers(remote, SearchByName(w)) && Primed(first.cache, w, remote, now)
      {
        if KeywordKey(w) != KeywordKey(w0) {
          SameElsewhereAt(c, first.cache, KeywordKey(w0), KeywordKey(w));
        } else {
          KeywordKeyInjective(w, w0);
        }
      }
      KeywordsFromRemote(first.cache, kws[1..], remote, now);
      var b := FetchKeywords(c, kws, remote, now);
      var rest := FetchKeywords(first.cache, kws[1..], remote, now);
      assert b.results == [first.result] + rest.results;
      assert b.results[1..] == rest.results;
    }
  }

  /** The empty cache of a first launch with working storage. */
  const Cold: Cache := Cache(map[], map[], true)

  /**
   On a first launch with every sub-request answering, the aggregate is the
   merge of the area list followed by the keyword lists in keyword order,
   and it is cached under `indian:all`.
   */
  lemma ColdStartMergesResponses(remote: Remote, now: int)
    requires Answers(remote, IndianArea)
    requires forall w :: w in Keywords ==> Answers(remote, SearchByName(w))
    ensures var r := FetchIndianMeals(Cold, remote, now);
            var merged := Merge(Listed(remote, IndianArea) + KeywordMeals(remote, Keywords));
            && r.result == Ok(Meals(merged))
            && AllKey in r.cache.durable
            && r.cache.durable[AllKey] == Parsed(Stamped(Time, Meals(merged), now))
  {
    var read := GetCache(Cold, Time, AllKey, now);
    assert read == Read(Cold, None);
    var area := FetchCached(Cold, IndianArea, AreaSubKey, remote, now);
    assert area.result == Ok(Meals(Listed(remote, IndianArea)));
    IndianKeysDistinct();
    forall w | w in Keywords
      ensures Primed(area.cache, w, remote, now)
    {
      SameElsewhereAt(Cold, area.cache, AreaSubKey, KeywordKey(w));
    }
    KeywordsFromRemote(area.cache, Keywords, remote, now);
    var kw := FetchKeywords(area.cache, Keywords, remote, now);
    var merged := Merge(Listed(remote, IndianArea) + KeywordMeals(remote, Keywords));
    assert Combine(area.result.value, kw.results) == Some(merged);
    var g := Gather(Cold, remote, now);
    assert g == Gathered(kw.cache, area.fetched + kw.fetched, area.result, kw.results, Some(merged));
    assert g.cache.writable;
  }

  /** Every keyword search answering with no meals lists nothing. */
  lemma {:induction false} NoKeywordMeals(remote: Remote, kws: seq<string>)
    requires forall e :: remote(e) == Response(true, Json(None))
    ensures KeywordMeals(remote, kws) == []
    decreases |kws|
  {
    if kws != [] {
      NoKeywordMeals(remote, kws[1..]);
    }
  }

  /**
   An empty merge is stored like any other: when every sub-request of a
   first launch answers with no meals, `[]` goes under `indian:all` in both
   tiers, and as an empty array is truthy the next call within the TTL
   returns it from memory without asking the remote again.
   */
  lemma EmptyMergeIsCached(remote: Remote, remote': Remote, t: int, t': int)
    requires forall e :: remote(e) == Response(true, Json(None))
    requires t <= t' < t + CacheTtl
    ensures var first := FetchIndianMeals(Cold, remote, t);
            && first.result == Ok(Meals([]))
            && AllKey in first.cache.durable
            && FetchIndianMeals(first.cache, remote', t') == Run(first.cache, [], Ok(Meals([])))
  {
    EmptyMergeFirstCall(remote, t);
    var first := FetchIndianMeals(Cold, remote, t);
    assert FreshInMemory(first.cache, Time, AllKey, t');
    AllKeyHit(first.cache, remote', t');
  }

  /** The first call of the scenario above: `[]` merged and stored, stamped `t`, in both tiers. */
  lemma EmptyMergeFirstCall(remote: Remote, t: int)
    requires forall e :: remote(e) == Response(true, Json(None))
    ensures var first := FetchIndianMeals(Cold, remote, t);
            && first.result == Ok(Meals([]))
            && AllKey in first.cache.durable
            && AllKey in first.cache.memory
            && first.cache.memory[AllKey].data == Meals([])
            && Stamp(first.cache.memory[AllKey], Time) == Some(t)
  {
    NothingToMerge(remote);
    ColdStartMergesResponses(remote, t);
    assert GetCache(Cold, Time, AllKey, t) == Read(Cold, None);
  }

  lemma NothingToMerge(remote: Remote)
    requires forall e :: remote(e) == Response(true, Json(None))
    ensures Merge(Listed(remote, IndianArea) + KeywordMeals(remote, Keywords)) == []
  {
    NoKeywordMeals(remote, Keywords);
    assert Listed(remote, IndianArea) == [];
    assert Merge([] + []) == [];
  }

  /**
   After a call that merged and stored successfully, a call within the TTL
   is answered from `indian:all` with the same list and no request at all.
   */
  lemma SecondCallIsHit(c: Cache, remote: Remote, remote': Remote, t: int, t': int)
    requires t <= t' < t + CacheTtl
    requires GetCache(c, Time, AllKey, t).data.None?
    requires FetchIndianMeals(c, remote, t).result.value != Degraded
    ensures var first := FetchIndianMeals(c, remote, t);
            FetchIndianMeals(first.cache, remote', t') == Run(first.cache, [], first.result)
  {
    var first := FetchIndianMeals(c, remote, t);
    assert Stamp(first.cache.memory[AllKey], Time) == Some(t);
  }

  /** When every keyword key is fresh in memory, the searches are all hits: no request, no change, all ok. */
  lemma {:induction false} KeywordsAllHit(c: Cache, kws: seq<string>, remote: Remote, now: int)
    requires forall w :: w in kws ==> FreshInMemory(c, Time, KeywordKey(w), now)
    ensures var b := FetchKeywords(c, kws, remote, now);
            b.cache == c && b.fetched == [] && AllOk(b.results)
    decreases |kws|
  {
    if kws != [] {
      KeywordsAllHit(c, kws[1..], remote, now);
    }
  }

  /** With the area key and every keyword key fresh in memory, gathering requests nothing, changes nothing and merges. */
  lemma GatherAllHit(c: Cache, remote: Remote, now: int)
    requires FreshInMemory(c, Time, AreaSubKey, now) && c.memory[AreaSubKey].data.Meals?
    requires forall w :: w in Keywords ==> FreshInMemory(c, Time, KeywordKey(w), now)
    ensures var g := Gather(c, remote, now);
            g.cache == c && g.fetched == [] && g.merged.Some?
  {
    var area := FetchCached(c, IndianArea, AreaSubKey, remote, now);
    assert area == Run(c, [], Ok(c.memory[AreaSubKey].data));
    KeywordsAllHit(c, Keywords, remote, now);
  }

  /**
   When the final durable write is rejected (every sub-list answered from
   memory, storage full) the call returns the empty list, yet memory already
   holds the merge, so a second call at the same moment returns the merge
   without any request while `indian:all` is still absent from storage.
   */
  lemma RejectedFinalWriteStillServesMemory(c: Cache, remote: Remote, now: int)
    requires !c.writable
    requires AllKey !in c.memory && AllKey !in c.durable
    requires FreshInMemory(c, Time, AreaSubKey, now) && c.memory[AreaSubKey].data.Meals?
    requires forall w :: w in Keywords ==> FreshInMemory(c, Time, KeywordKey(w), now)
    ensures var first := FetchIndianMeals(c, remote, now);
            && first.result == Ok(Degraded)
            && first.fetched == []
            && AllKey !in first.cache.durable
            && FreshInMemory(first.cache, Time, AllKey, now)
            && FetchIndianMeals(first.cache, remote, now) == Run(first.cache, [], Ok(first.cache.memory[AllKey].data))
  {
    RejectedFinalWrite(c, remote, now);
    AllKeyHit(FetchIndianMeals(c, remote, now).cache, remote, now);
  }

  /** The first call of the scenario above: `[]` returned, the merge in memory only. */
  lemma RejectedFinalWrite(c: Cache, remote: Remote, now: int)
    requires !c.writable
    requires AllKey !in c.memory && AllKey !in c.durable
    requires FreshInMemory(c, Time, AreaSubKey, now) && c.memory[AreaSubKey].data.Meals?
    requires forall w :: w in Keywords ==> FreshInMemory(c, Time, KeywordKey(w), now)
    ensures var first := FetchIndianMeals(c, remote, now);
            && first.result == Ok(Degraded)
            && first.fetched == []
            && AllKey !in first.cache.durable
            && FreshInMemory(first.cache, Time, AllKey, now)
  {
    assert GetCache(c, Time, AllKey, now) == Read(c, None);
    GatherAllHit(c, remote, now);
  }

  /** A fresh `indian:all` in memory answers the aggregate with no request and no change. */
  lemma AllKeyHit(c: Cache, remote: Remote, now: int)
    requires FreshInMemory(c, Time, AllKey, now)
    ensures FetchIndianMeals(c, remote, now) == Run(c, [], Ok(c.memory[AllKey].data))
  {
  }

  /** A keyword whose key is in neither tier and whose search fails makes the keyword batch fail. */
  lemma {:induction false} KeywordFailurePropagates(c: Cache, kws: seq<string>, w: string, remote: Remote, now: int)
    requires w in kws
    requires KeywordKey(w) !in c.memory && KeywordKey(w) !in c.durable
    requires !remote(SearchByName(w)).ok
    ensures !AllOk(FetchKeywords(c, kws, remote, now).results)
    decreases |kws|
  {
    var first := FetchCached(c, SearchByName(kws[0]), KeywordKey(kws[0]), remote, now);
    var b := FetchKeywords(c, kws, remote, now);
    var rest := FetchKeywords(first.cache, kws[1..], remote, now);
    assert b.results == [first.result] + rest.results;
    if kws[0] == w {
      assert !b.results[0].Ok? by {
        assert first.result == Thrown(ApiError);
      }
    } else {
      assert KeywordKey(w) !in first.cache.memory && KeywordKey(w) !in first.cache.durable by {
        if KeywordKey(w) == KeywordKey(kws[0]) {
          KeywordKeyInjective(w, kws[0]);
        }
        SameElsewhereAt(c, first.cache, KeywordKey(kws[0]), KeywordKey(w));
      }
      KeywordFailurePropagates(first.cache, kws[1..], w, remote, now);
      NotAllOkCons(first.result, rest.results);
    }
  }

  lemma NotAllOkCons(x: Result<Payload>, rs: seq<Result<Payload>>)
    requires !AllOk(rs)
    ensures !AllOk([x] + rs)
  {
    var i :| 0 <= i < |rs| && !rs[i].Ok?;
    assert ([x] + rs)[i + 1] == rs[i];
  }

  /** What a miss on `indian:all` leaves there when nothing is written: nothing in memory, and in storage only an unreadable value that was already there. */
  predicate AllKeyUnwritten(c: Cache, r: Cache) {
    AllKey !in r.memory && DurableUnwritten(c, r)
  }

  /**
   Storage holds nothing new under `indian:all`: only an unreadable value
   that was already there (a miss does not remove it) survives.
   */
  predicate DurableUnwritten(c: Cache, r: Cache) {
    && (AllKey in r.durable <==> AllKey in c.durable && c.durable[AllKey].Garbage?)
    && (AllKey in r.durable ==> r.durable[AllKey] == c.durable[AllKey])
  }

  lemma GatherFailureDegrades(c: Cache, remote: Remote, now: int)
    requires GetCache(c, Time, AllKey, now).data.None?
    requires Gather(GetCache(c, Time, AllKey, now).cache, remote, now).merged.None?
    ensures var r := FetchIndianMeals(c, remote, now);
            r.result == Ok(Degraded) && AllKeyUnwritten(c, r.cache)
  {
    IndianKeysDistinct();
    var read := GetCache(c, Time, AllKey, now);
    var g := Gather(read.cache, remote, now);
    assert SameAt(read.cache, g.cache, AllKey);
    assert FetchIndianMeals(c, remote, now) == Run(g.cache, g.fetched, Ok(Degraded));
  }

  /**
   When the area fetch goes to the network and fails, the call returns the
   empty list, requests nothing more, and leaves `indian:all` unwritten.
   */
  lemma AreaFailureDegrades(c: Cache, remote: Remote, now: int)
    requires GetCache(c, Time, AllKey, now).data.None?
    requires AreaSubKey !in c.memory && AreaSubKey !in c.durable
    requires !remote(IndianArea).ok
    ensures var r := FetchIndianMeals(c, remote, now);
            r.result == Ok(Degraded) && r.fetched == [IndianArea] && AllKeyUnwritten(c, r.cache)
  {
  }

  /**
   When one keyword search goes to the network and fails, the call still
   resolves, to the empty list, and leaves `indian:all` unwritten.
   */
  lemma KeywordFailureDegrades(c: Cache, w: string, remote: Remote, now: int)
    requires GetCache(c, Time, AllKey, now).data.None?
    requires w in Keywords
    requires KeywordKey(w) !in c.memory && KeywordKey(w) !in c.durable
    requires !remote(SearchByName(w)).ok
    ensures var r := FetchIndianMeals(c, remote, now);
            r.result == Ok(Degraded) && AllKeyUnwritten(c, r.cache)
  {
    IndianKeysDistinct();
    var read := GetCache(c, Time, AllKey, now);
    SameElsewhereAt(c, read.cache, AllKey, KeywordKey(w));
    var area := FetchCached(read.cache, IndianArea, AreaSubKey, remote, now);
    SameElsewhereAt(read.cache, area.cache, AreaSubKey, KeywordKey(w));
    if area.result.Ok? {
      KeywordFailurePropagates(area.cache, Keywords, w, remote, now);
    }
    GatherFailureDegrades(c, remote, now);
  }
}

=== FILE: meal_merge.dfy ===
/**
 Deduplication by `idMeal` as the aggregate view does it: every record is
 passed in order to `Map.set(idMeal, meal)` on a JavaScript Map (records
 without a truthy `idMeal` are skipped), and the Map's values are read back
 in insertion order. A key keeps the position of its first insertion while a
 later `set` replaces its value, so the result lists ids by first appearance
 and holds, for each id, the LAST record seen with it.
 */
module MealMerge {
  import opened Records

  /** One entry of an insertion-ordered map. */
  datatype Slot = Slot(key: string, val: Meal)

  function Keys(m: seq<Slot>): (ks: seq<string>)
    ensures |ks| == |m|
    ensures forall i :: 0 <= i < |m| ==> ks[i] == m[i].key
  {
    seq(|m|, i requires 0 <= i < |m| => m[i].key)
  }

  function Values(m: seq<Slot>): (vs: seq<Meal>)
    ensures |vs| == |m|
    ensures forall i :: 0 <= i < |m| ==> vs[i] == m[i].val
  {
    seq(|m|, i requires 0 <= i < |m| => m[i].val)
  }

  predicate Distinct(ks: seq<string>) {
    forall i, j :: 0 <= i < j < |ks| ==> ks[i] != ks[j]
  }

  /** The position of `k` among distinct keys. */
  function IndexOf(ks: seq<string>, k: string): (i: nat)
    requires k in ks
    ensures i < |ks| && ks[i] == k
  {
    if ks[0] == k then 0 else 1 + IndexOf(ks[1..], k)
  }

  /**
   `Map.set(k, v)`: when `k` is present its slot keeps its place and takes
   `v`; otherwise a slot for `k` is appended. Nothing else changes.
   */
  function Put(m: seq<Slot>, k: string, v: Meal): (m': seq<Slot>)
    requires Distinct(Keys(m))
    ensures Keys(m') == if k in Keys(m) then Keys(m) else Keys(m) + [k]
    ensures Distinct(Keys(m'))
    ensures forall i :: 0 <= i < |m'| && m'[i].key == k ==> m'[i].val == v
    ensures forall i :: 0 <= i < |m'| && m'[i].key != k ==> i < |m| && m'[i] == m[i]
  {
    if k in Keys(m) then
      var i := IndexOf(Keys(m), k);
      var r := m[i := Slot(k, v)];
      assert Keys(r) == Keys(m);
      r
    else
      var r := m + [Slot(k, v)];
      assert Keys(r) == Keys(m) + [k];
      r
  }

  function Init<T>(s: seq<T>): seq<T>
    requires |s| > 0
  {
    s[..|s| - 1]
  }

  function LastOf<T>(s: seq<T>): T
    requires |s| > 0
  {
    s[|s| - 1]
  }

  /** The Map after `forEach` has visited every record of `s`, in order. */
  function Build(s: seq<Meal>): (m: seq<Slot>)
    ensures Distinct(Keys(m))
  {
    if s == [] then []
    else
      var m := Build(Init(s));
      var x := LastOf(s);
      if HasId(x) then Put(m, Id(x), x) else m
  }

  /** `Array.from(map.values())` after the merge loop. */
  function Merge(s: seq<Meal>): seq<Meal> {
    Values(Build(s))
  }

  // Reference definitions: what the merged list should be, stated without a Map.

  /** The distinct truthy ids of `s`, in order of first appearance. */
  function FirstIds(s: seq<Meal>): seq<string> {
    if s == [] then []
    else
      var p := FirstIds(Init(s));
      var x := LastOf(s);
      if HasId(x) && Id(x) !in p then p + [Id(x)] else p
  }

  /** The last record of `s` with id `id`, if there is one. */
  function Last(s: seq<Meal>, id: string): (r: Option<Meal>)
    ensures r.Some? ==> r.value in s && HasId(r.value) && Id(r.value) == id
    ensures r.None? ==> forall i :: 0 <= i < |s| && HasId(s[i]) ==> Id(s[i]) != id
  {
    if s == [] then None
    else
      var x := LastOf(s);
      if HasId(x) && Id(x) == id then Some(x)
      else
        var r := Last(Init(s), id);
        assert forall i :: 0 <= i < |s| - 1 ==> s[i] == Init(s)[i];
        r
  }

  /** The position of the first record of `s` with id `id`, if there is one. */
  function FirstIndex(s: seq<Meal>, id: string): (r: Option<nat>)
    ensures r.Some? ==> r.value < |s| && HasId(s[r.value]) && Id(s[r.value]) == id
    ensures r.None? ==> forall i :: 0 <= i < |s| && HasId(s[i]) ==> Id(s[i]) != id
  {
    if s == [] then None
    else
      var p := FirstIndex(Init(s), id);
      var x := LastOf(s);
      assert forall i :: 0 <= i < |s| - 1 ==> s[i] == Init(s)[i];
      if p.Some? then p
      else if HasId(x) && Id(x) == id then Some(|s| - 1)
      else None
  }

  lemma {:induction false} FirstIdsSound(s: seq<Meal>)
    ensures Distinct(FirstIds(s))
    ensures forall id :: id in FirstIds(s) <==> Last(s, id).Some?
  {
    if s != [] {
      FirstIdsSound(Init(s));
    }
  }

  /** The Map built by the merge loop holds exactly the reference: first-appearance keys, last-seen values. */
  lemma {:induction false} BuildMatchesReference(s: seq<Meal>)
    ensures Keys(Build(s)) == FirstIds(s)
    ensures forall i :: 0 <= i < |Build(s)| ==> Last(s, Build(s)[i].key) == Some(Build(s)[i].val)
  {
    if s != [] {
      BuildMatchesReference(Init(s));
      FirstIdsSound(Init(s));
    }
  }

  /** Ids are listed by first appearance: earlier in the result means first seen earlier in the input. */
  lemma {:induction false} FirstIdsInOrder(s: seq<Meal>)
    ensures forall id :: id in FirstIds(s) ==> FirstIndex(s, id).Some?
    ensures forall i, j :: 0 <= i < j < |FirstIds(s)| ==>
              FirstIndex(s, FirstIds(s)[i]).value < FirstIndex(s, FirstIds(s)[j]).value
  {
    if s != [] {
      var p := Init(s);
      FirstIdsInOrder(p);
      FirstIdsSound(p);
      assert forall id :: id in FirstIds(p) ==> FirstIndex(s, id) == FirstIndex(p, id);
      var x := LastOf(s);
      if HasId(x) && Id(x) !in FirstIds(p) {
        assert Last(p, Id(x)).None?;
        assert FirstIndex(p, Id(x)).None?;
        assert FirstIndex(s, Id(x)) == Some(|s| - 1);
      }
    }
  }

  /**
   `r` is what merging `s` should give: only records with a truthy id, ids
   pairwise distinct, every truthy id of `s` present, ids in order of first
   appearance, and each id carrying the last record of `s` with it.
   */
  predicate MergedFrom(r: seq<Meal>, s: seq<Meal>) {
    && |r| == |FirstIds(s)|
    && (forall i :: 0 <= i < |r| ==> HasId(r[i]) && Id(r[i]) == FirstIds(s)[i] && Last(s, Id(r[i])) == Some(r[i]))
    && (forall i, j :: 0 <= i < j < |r| ==> Id(r[i]) != Id(r[j]))
    && (forall i :: 0 <= i < |s| && HasId(s[i]) ==> Id(s[i]) in FirstIds(s))
    && (forall i :: 0 <= i < |r| ==> FirstIndex(s, Id(r[i])).Some?)
    && (forall i, j :: 0 <= i < j < |r| ==> FirstIndex(s, Id(r[i])).value < FirstIndex(s, Id(r[j])).value)
  }

  /** The merge loop meets the reference characterisation. */
  lemma MergeSpec(s: seq<Meal>)
    ensures MergedFrom(Merge(s), s)
  {
    BuildMatchesReference(s);
    FirstIdsSound(s);
    FirstIdsInOrder(s);
    var r := Merge(s);
    forall i | 0 <= i < |r|
      ensures HasId(r[i]) && Id(r[i]) == FirstIds(s)[i]
    {
      var l := Last(s, Build(s)[i].key);
    }
  }

  /**
   Two sources listing the same id: the merged list keeps the id where the
   first copy stood but holds the later copy.
   */
  lemma LaterCopyWins(a: Meal, b: Meal, b': Meal, c: Meal)
    requires HasId(a) && HasId(b) && HasId(b') && HasId(c)
    requires Id(b) == Id(b')
    requires Id(a) != Id(b) && Id(a) != Id(c) && Id(b) != Id(c)
    ensures Merge([a, b] + [b', c]) == [a, b', c]
  {
    var sa, sb', sc := Slot(Id(a), a), Slot(Id(b'), b'), Slot(Id(c), c);
    BuildRepeatedSecond(a, b, b');
    BuildSnocNew([a, b, b'], [sa, sb'], c);
    assert [a, b] + [b', c] == [a, b, b'] + [c];
    assert Values([sa, sb'] + [sc]) == [a, b', c];
  }

  /** The first three records of `LaterCopyWins`: the repeated id keeps its slot and takes the later record. */
  lemma BuildRepeatedSecond(a: Meal, b: Meal, b': Meal)
    requires HasId(a) && HasId(b) && HasId(b') && Id(b) == Id(b') && Id(a) != Id(b)
    ensures Build([a, b, b']) == [Slot(Id(a), a), Slot(Id(b'), b')]
  {
    var sa, sb, sb' := Slot(Id(a), a), Slot(Id(b), b), Slot(Id(b'), b');
    assert Build([a]) == [sa] by {
      BuildSnocNew([], [], a);
      assert [] + [a] == [a];
    }
    BuildSnocNew([a], [sa], b);
    assert [a] + [b] == [a, b];
    BuildSnocExisting([a, b], [sa, sb], 1, b');
    assert [a, b] + [b'] == [a, b, b'];
    assert [sa, sb][1 := sb'] == [sa, sb'];
  }

  /** A record with a new id adds a slot for it at the end of the map. */
  lemma BuildSnocNew(s: seq<Meal>, m: seq<Slot>, x: Meal)
    requires Build(s) == m && HasId(x)
    requires forall j :: 0 <= j < |m| ==> m[j].key != Id(x)
    ensures Build(s + [x]) == m + [Slot(Id(x), x)]
  {
    BuildSnoc(s, x);
    PutNew(m, Id(x), x);
  }

  /** A record with the id of slot `i` replaces that slot's value in place. */
  lemma BuildSnocExisting(s: seq<Meal>, m: seq<Slot>, i: nat, x: Meal)
    requires Build(s) == m && HasId(x)
    requires i < |m| && m[i].key == Id(x)
    ensures Build(s + [x]) == m[i := Slot(Id(x), x)]
  {
    BuildSnoc(s, x);
    PutExisting(m, i, x);
  }

  /** `Map.set` of a new key appends its slot. */
  lemma PutNew(m: seq<Slot>, k: string, v: Meal)
    requires Distinct(Keys(m)) && k !in Keys(m)
    ensures Put(m, k, v) == m + [Slot(k, v)]
  {
  }

  /** `Map.set` of the key at position `i` replaces that slot in place. */
  lemma PutExisting(m: seq<Slot>, i: nat, v: Meal)
    requires Distinct(Keys(m)) && i < |m|
    ensures Put(m, m[i].key, v) == m[i := Slot(m[i].key, v)]
  {
    assert Keys(m)[i] == m[i].key;
    var j := IndexOf(Keys(m), m[i].key);
    assert j == i;
  }

  /** The merge loop, one record further on. */
  lemma BuildSnoc(s: seq<Meal>, x: Meal)
    ensures Build(s + [x]) == if HasId(x) then Put(Build(s), Id(x), x) else Build(s)
  {
    assert Init(s + [x]) == s;
  }

  /**
   A record without a truthy id (its `idMeal` absent or the empty string)
   is skipped: wherever it stands in the input, the merge is as if it were
   not there.
   */
  lemma {:induction false} RecordsWithoutIdDropped(a: seq<Meal>, x: Meal, b: seq<Meal>)
    requires !HasId(x)
    ensures Merge(a + [x] + b) == Merge(a + b)
  {
    BuildSkipsNoId(a, x, b);
  }

  lemma {:induction false} BuildSkipsNoId(a: seq<Meal>, x: Meal, b: seq<Meal>)
    requires !HasId(x)
    ensures Build(a + [x] + b) == Build(a + b)
    decreases |b|
  {
    if b == [] {
      assert a + [x] + b == a + [x];
      assert a + b == a;
      BuildSnoc(a, x);
    } else {
      var b', y := Init(b), LastOf(b);
      BuildSkipsNoId(a, x, b');
      assert b == b' + [y];
      assert a + [x] + b == (a + [x] + b') + [y];
      assert a + b == (a + b') + [y];
      BuildSnoc(a + [x] + b', y);
      BuildSnoc(a + b', y);
    }
  }

  /** Both falsy forms of `idMeal`, absent and the empty string, are dropped. */
  lemma AbsentAndEmptyIdsDropped()
    ensures Merge([Meal(None, map[]), Meal(Some(""), map[])]) == []
  {
  }
}

=== FILE: records.dfy ===
/**
 The values the recipe app's cache and fetch layer passes around: recipe
 records, cached payloads, cache entries as stored in either tier, and the
 durable tier's raw values.
 */
module Records {

  datatype Option<+T> = None | Some(value: T)

  /** Thirty minutes in milliseconds: an entry is fresh while its age is below this. */
  const CacheTtl: int := 30 * 60 * 1000

  /**
   A recipe record as the remote API returns it. The cache treats it as
   opaque except for `idMeal`, which may be absent. The remaining string
   fields (name, thumbnail, area, category, ...) are carried through unread.
   */
  datatype Meal = Meal(idMeal: Option<string>, fields: map<string, string>)

  /** JavaScript truthiness of `meal.idMeal`: present and not the empty string. */
  predicate HasId(m: Meal) {
    m.idMeal.Some? && m.idMeal.value != ""
  }

  function Id(m: Meal): (id: string)
    requires HasId(m)
    ensures id != ""
  {
    m.idMeal.value
  }

  /**
   What a cache entry holds: an array of records (every list query and the
   aggregate) or a single record (the detail lookup). Both are truthy in
   JavaScript, so any stored payload counts as a hit.
   */
  datatype Payload = Meals(list: seq<Meal>) | One(meal: Meal)

  /**
   The two cache copies stamp their entries under different field names.
   */
  datatype Field = Timestamp | Time

  /**
   A cache entry as an object: its payload and the two possible stamp
   fields. A field that is absent (or not a number) is `None`; the age
   computed from it is then NaN and never below the TTL.
   */
  datatype Entry = Entry(data: Payload, timestamp: Option<int>, time: Option<int>)

  function Stamp(e: Entry, f: Field): Option<int> {
    match f
    case Timestamp => e.timestamp
    case Time => e.time
  }

  /** The entry a cache copy writes for `data` at time `now`. */
  function Stamped(f: Field, data: Payload, now: int): (e: Entry)
    ensures e.data == data
    ensures Stamp(e, f) == Some(now)
  {
    match f
    case Timestamp => Entry(data, Some(now), None)
    case Time => Entry(data, None, Some(now))
  }

  /** Strict freshness: the age read from field `f` is below the TTL. */
  predicate Fresh(e: Entry, f: Field, now: int) {
    Stamp(e, f).Some? && now - Stamp(e, f).value < CacheTtl
  }

  /**
   A durable-tier value as the cache sees it after `JSON.parse`: an entry,
   or something that makes the read throw (unparseable text, the empty
   string, JSON `null`), which the cache reports as a miss.
   */
  datatype Raw = Parsed(entry: Entry) | Garbage
}

=== FILE: ttl_cache.dfy ===
/**
 The two-tier TTL cache: a memory tier mapping keys to entries and a durable
 tier mapping keys to serialised entries. The app holds two copies of this
 cache, the standalone module and the one embedded in the API module. Each
 copy has its own memory map, while the durable storage is one store shared
 by both. A `Cache` value is one copy's view: that copy's memory tier and
 the shared durable tier. The two copies run the same code on their view
 and differ in the stamp field they read and write.

 The clock is the parameter `now`. A durable write can fail (storage full);
 `writable` says whether it succeeds. Reads and removals always succeed.
 */
module TtlCache {
  import opened Records

  datatype Cache = Cache(memory: map<string, Entry>, durable: map<string, Raw>, writable: bool)

  /** The outcome of a read: the new cache state and the data found, if any. */
  datatype Read = Read(cache: Cache, data: Option<Payload>)

  /** The outcome of a write: the new cache state and whether the durable write succeeded. */
  datatype Write = Write(cache: Cache, ok: bool)

  predicate FreshInMemory(c: Cache, f: Field, key: string, now: int) {
    key in c.memory && Fresh(c.memory[key], f, now)
  }

  predicate FreshInDurable(c: Cache, f: Field, key: string, now: int) {
    key in c.durable && c.durable[key].Parsed? && Fresh(c.durable[key].entry, f, now)
  }

  /** The two states agree on every key other than `key`, in both tiers. */
  predicate SameElsewhere(c: Cache, c': Cache, key: string) {
    && c.memory - {key} == c'.memory - {key}
    && c.durable - {key} == c'.durable - {key}
    && c.writable == c'.writable
  }

  /** Both tiers hold the same thing (or nothing) for `key` in the two states. */
  predicate SameAt(c: Cache, c': Cache, key: string) {
    && (key in c.memory <==> key in c'.memory)
    && (key in c.memory ==> c.memory[key] == c'.memory[key])
    && (key in c.durable <==> key in c'.durable)
    && (key in c.durable ==> c.durable[key] == c'.durable[key])
  }

  lemma SameElsewhereAt(c: Cache, c': Cache, key: string, k: string)
    requires SameElsewhere(c, c', key) && k != key
    ensures SameAt(c, c', k)
  {
    assert k in c.memory <==> k in c.memory - {key};
    assert k in c'.memory <==> k in c'.memory - {key};
    assert k in c.durable <==> k in c.durable - {key};
    assert k in c'.durable <==> k in c'.durable - {key};
    if k in c.memory { assert c.memory[k] == (c.memory - {key})[k]; }
    if k in c.durable { assert c.durable[k] == (c.durable - {key})[k]; }
  }

  lemma SameElsewhereEverywhere(c: Cache, c': Cache, key: string)
    requires SameElsewhere(c, c', key)
    ensures forall k :: k != key ==> SameAt(c, c', k)
  {
    forall k | k != key
      ensures SameAt(c, c', k)
    {
      SameElsewhereAt(c, c', key, k);
    }
  }

  lemma SameAtTrans(c1: Cache, c2: Cache, c3: Cache, key: string)
    requires SameAt(c1, c2, key) && SameAt(c2, c3, key)
    ensures SameAt(c1, c3, key)
  {
  }

  lemma SameAtSym(c: Cache, c': Cache, key: string)
    requires SameAt(c, c', key)
    ensures SameAt(c', c, key)
  {
  }

  /** A read of `key` sees only what the two tiers hold for `key`. */
  lemma ReadIsLocal(c: Cache, c': Cache, f: Field, key: string, now: int)
    requires SameAt(c, c', key)
    ensures GetCache(c, f, key, now).data == GetCache(c', f, key, now).data
  {
  }

  /**
   getCache. A fresh memory entry answers at once. A stale one is deleted,
   and the durable tier is consulted: a fresh entry there is promoted into
   memory, a stale one is removed, and an unreadable one is a miss that
   touches nothing.
   */
  function GetCache(c: Cache, f: Field, key: string, now: int): (r: Read)
    ensures SameElsewhere(c, r.cache, key)
    ensures r.data.Some? <==> FreshInMemory(c, f, key, now) || FreshInDurable(c, f, key, now)
    ensures FreshInMemory(c, f, key, now) ==> r == Read(c, Some(c.memory[key].data))
    ensures !FreshInMemory(c, f, key, now) && FreshInDurable(c, f, key, now) ==>
              && r.data == Some(c.durable[key].entry.data)
              && r.cache.memory == c.memory[key := c.durable[key].entry]
              && r.cache.durable == c.durable
    ensures r.data.Some? ==> FreshInMemory(r.cache, f, key, now) && r.cache.memory[key].data == r.data.value
    ensures r.data.None? ==> key !in r.cache.memory
    ensures r.data.None? ==> (key in r.cache.durable <==> key in c.durable && c.durable[key].Garbage?)
    ensures forall k :: k in r.cache.durable ==> k in c.durable && r.cache.durable[k] == c.durable[k]
  {
    if key in c.memory && Fresh(c.memory[key], f, now) then
      Read(c, Some(c.memory[key].data))
    else
      var evicted := c.(memory := c.memory - {key});
      if key !in c.durable then
        Read(evicted, None)
      else
        match c.durable[key]
        case Garbage => Read(evicted, None)
        case Parsed(e) =>
          if Fresh(e, f, now) then
            Read(evicted.(memory := evicted.memory[key := e]), Some(e.data))
          else
            Read(evicted.(durable := c.durable - {key}), None)
  }

  /**
   setCache. The entry stamped `now` goes into memory first and then, if
   storage accepts it, into the durable tier; a rejected durable write
   leaves the memory write in place.
   */
  function SetCache(c: Cache, f: Field, key: string, data: Payload, now: int): (w: Write)
    ensures SameElsewhere(c, w.cache, key)
    ensures key in w.cache.memory && w.cache.memory[key] == Stamped(f, data, now)
    ensures w.ok <==> c.writable
    ensures w.ok ==> key in w.cache.durable && w.cache.durable[key] == Parsed(w.cache.memory[key])
    ensures !w.ok ==> w.cache.durable == c.durable
  {
    var e := Stamped(f, data, now);
    if c.writable then
      Write(c.(memory := c.memory[key := e], durable := c.durable[key := Parsed(e)]), true)
    else
      Write(c.(memory := c.memory[key := e]), false)
  }

  /** A read at the time of a write, or within the TTL after it, returns the written data from memory. */
  lemma ReadAfterWrite(c: Cache, f: Field, key: string, data: Payload, t: int, t': int)
    requires t <= t' < t + CacheTtl
    ensures var w := SetCache(c, f, key, data, t);
            GetCache(w.cache, f, key, t') == Read(w.cache, Some(data))
  {
  }

  /**
   Once the TTL has elapsed since a successful write, a read misses and
   leaves the key in neither tier. An age of exactly the TTL is stale.
   */
  lemma ExpiredAfterWrite(c: Cache, f: Field, key: string, data: Payload, t: int, t': int)
    requires c.writable
    requires t' >= t + CacheTtl
    ensures var r := GetCache(SetCache(c, f, key, data, t).cache, f, key, t');
            r.data == None && key !in r.cache.memory && key !in r.cache.durable
  {
  }

  /**
   A second write restarts the expiry window: at a time when the first write
   alone would have expired, the second one still answers.
   */
  lemma RewriteRestartsWindow(c: Cache, f: Field, key: string, d1: Payload, d2: Payload, t1: int, t2: int, t: int)
    requires c.writable
    requires t1 <= t2 <= t < t2 + CacheTtl
    requires t >= t1 + CacheTtl
    ensures GetCache(SetCache(c, f, key, d1, t1).cache, f, key, t).data == None
    ensures GetCache(SetCache(SetCache(c, f, key, d1, t1).cache, f, key, d2, t2).cache, f, key, t).data == Some(d2)
  {
  }

  /** Reading twice at the same moment: the second read answers the same and changes nothing. */
  lemma ReadIsStable(c: Cache, f: Field, key: string, now: int)
    ensures var r := GetCache(c, f, key, now);
            GetCache(r.cache, f, key, now) == r
  {
  }

  /**
   A durable entry that a fresh process finds (memory empty for the key) is
   promoted: the read returns its data and a following read is a memory hit.
   */
  lemma PromotionServesLaterReads(c: Cache, f: Field, key: string, e: Entry, now: int, later: int)
    requires key !in c.memory
    requires key in c.durable && c.durable[key] == Parsed(e)
    requires now <= later && Fresh(e, f, later)
    ensures var r := GetCache(c, f, key, now);
            && r.data == Some(e.data)
            && r.cache.memory == c.memory[key := e]
            && GetCache(r.cache, f, key, later) == Read(r.cache, Some(e.data))
  {
  }

  /**
   The standalone copy reads `timestamp`, so an entry the embedded copy
   wrote to the shared storage (stamped in `time`) is stale to it whatever
   the clock says, and its read removes it from storage. `c` is the
   standalone copy's view, whose own memory does not hold the key; the
   embedded copy's memory is outside this view and keeps its entry.
   */
  lemma StandaloneEvictsEmbeddedEntry(c: Cache, key: string, data: Payload, t: int, now: int)
    requires key !in c.memory
    requires key in c.durable && c.durable[key] == Parsed(Stamped(Time, data, t))
    ensures var r := GetCache(c, Timestamp, key, now);
            r.data == None && key !in r.cache.durable
  {
  }

  /** The same entry with its two stamp fields exchanged. */
  function SwapFields(e: Entry): (e': Entry)
    ensures Stamp(e', Timestamp) == Stamp(e, Time) && Stamp(e', Time) == Stamp(e, Timestamp)
    ensures e'.data == e.data
  {
    Entry(e.data, e.time, e.timestamp)
  }

  function SwapRaw(r: Raw): Raw {
    match r
    case Parsed(e) => Parsed(SwapFields(e))
    case Garbage => Garbage
  }

  /** The cache state with every stored entry's stamp fields exchanged, in both tiers. */
  function Mirror(c: Cache): (m: Cache)
    ensures m.memory.Keys == c.memory.Keys && m.durable.Keys == c.durable.Keys
  {
    Cache(map k | k in c.memory :: SwapFields(c.memory[k]),
          map k | k in c.durable :: SwapRaw(c.durable[k]),
          c.writable)
  }

  /** Mirroring commutes with removing a key from either tier. */
  lemma MirrorRemove(c: Cache, key: string)
    ensures Mirror(c.(memory := c.memory - {key})) == Mirror(c).(memory := Mirror(c).memory - {key})
    ensures Mirror(c.(durable := c.durable - {key})) == Mirror(c).(durable := Mirror(c).durable - {key})
  {
  }

  /** Mirroring commutes with storing an entry in either tier. */
  lemma MirrorUpdate(c: Cache, key: string, e: Entry)
    ensures Mirror(c.(memory := c.memory[key := e])) == Mirror(c).(memory := Mirror(c).memory[key := SwapFields(e)])
    ensures Mirror(c.(durable := c.durable[key := Parsed(e)])) == Mirror(c).(durable := Mirror(c).durable[key := Parsed(SwapFields(e))])
  {
  }

  /**
   The embedded copy, which stamps and reads `time`, behaves exactly as the
   standalone copy does on the mirrored state: same answer, same promotion
   and eviction, same strict freshness.
   */
  lemma EmbeddedReadMirrorsStandalone(c: Cache, key: string, now: int)
    ensures var r := GetCache(c, Time, key, now);
            GetCache(Mirror(c), Timestamp, key, now) == Read(Mirror(r.cache), r.data)
  {
    if !FreshInMemory(c, Time, key, now) {
      var evicted := c.(memory := c.memory - {key});
      MirrorRemove(c, key);
      if key in c.durable && c.durable[key].Parsed? {
        var e := c.durable[key].entry;
        if Fresh(e, Time, now) {
          MirrorUpdate(evicted, key, e);
        } else {
          MirrorRemove(evicted, key);
        }
      }
    }
  }

  /** Writes of the two copies agree on the mirrored state in the same way. */
  lemma EmbeddedWriteMirrorsStandalone(c: Cache, key: string, data: Payload, now: int)
    ensures var w := SetCache(c, Time, key, data, now);
            SetCache(Mirror(c), Timestamp, key, data, now) == Write(Mirror(w.cache), w.ok)
  {
    var e := Stamped(Time, data, now);
    assert SwapFields(e) == Stamped(Timestamp, data, now);
    MirrorUpdate(c, key, e);
    MirrorUpdate(c.(memory := c.memory[key := e]), key, e);
  }
}
